=== FILE: README.md ===
# Portfolio page: meeting booking and theme preference, in Dafny

The portfolio page (`app/page.tsx`) has two pieces with real behaviour.
This project models both as pure functions over immutable data and proves
properties of them.

**The meeting-booking handler** (`handleBookMeeting`):
- It refuses to book unless the date, time slot, title, name and e-mail
  fields are filled in.
- It reads `${selectedDate}T${selectedTime}:00` as a local date-time, takes
  a one-hour window from it, and formats both ends as compact UTC stamps
  (`formatDateTime`).
- It opens a Google Calendar event-template link. In that link the title,
  the details block, the fixed location and the fixed organiser address are
  percent-encoded (`encodeURIComponent`); the dates are not.
- After a booking the modal closes and every field is cleared. An invalid
  date makes the `catch` show an error alert.

**The theme provider** (`ThemeProvider`):
- The mode starts dark.
- On mount it reads the `theme` key from local storage and writes the mode
  back. Each toggle flips the mode and saves it.

The browser built-ins the handler relies on are modelled from their
ECMAScript definitions, in their own modules:
- `Calendar`: `new Date` of a local date-time, `getTime`, and the UTC
  fields behind `toISOString`. It uses proleptic Gregorian day numbers and
  time values in milliseconds since 1970 UTC.
- `IsoFormat`: `toISOString`, then `formatDateTime`'s `replace(/[-:]/g, "")`,
  `split(".")[0]` and `+ "Z"`. It also parses the `YYYY-MM-DDTHH:mm:ss`
  string.
- `UriComponent`: `encodeURIComponent` (UTF-8, upper-case `%XX`) and, as
  its partner, `decodeURIComponent`.
- `Text`: JavaScript's `split` and `indexOf`, and character deletion.
- `Decimal`: zero-padded decimal digits.
- `Results`: `Option` and `Result`.

The host's time zone is a parameter: a fixed offset `zone` in minutes east
of UTC.

The code checks only that each required field is non-empty: JavaScript's
`!s` is true just for `""`. So a field holding only spaces counts as filled
in, and nothing is trimmed. The code reports one fixed alert message rather
than which fields are missing. The model follows the code in both respects.

## Model

| member | source | states |
|---|---|---|
| Booking.HandleBookMeeting | app/page.tsx:115-154 | A missing required field shows "Please fill in all required fields" and leaves the form as it was. A date-time that cannot be read shows "There was an error booking the meeting. Please try again." and also leaves the form as it was. A tab opens exactly when all five fields are present and the date-time parses. It opens the booking link, and the form ends closed with every field empty. Every alert leaves the form unchanged. |
| Booking.BookingLink | app/page.tsx:117-138 | The missing-fields failure happens exactly when one of the five required fields is empty. The invalid-date failure happens exactly when they are all present but `new Date` cannot read the local string. |
| Booking.LocalStart | app/page.tsx:123 | The string handed to `new Date` is the selected date, `T`, the selected slot and `:00`, each at its own position. |
| Booking.Window | app/page.tsx:123-124 | The window ends one hour (3,600,000 ms) after it starts, and its start plus the zone offset is the time value of the local date-time. |
| Booking.DatesValue | app/page.tsx:132 | The `dates` value splits at `/` into exactly two pieces: the start's stamp and the end's stamp. |
| Booking.Details | app/page.tsx:133 | The details block is `Meeting with `, the name, `\n\nDescription: `, the description, `\n\nClient Email: ` and the e-mail, each at its own position. |
| Booking.LinkIsJoin | app/page.tsx:138 | The link is the calendar endpoint, `?`, and the six `key=value` segments (action, text, dates, details, location, add) joined by `&`. |
| Booking.BookingParameters | app/page.tsx:130-138 | A booked link's endpoint is the calendar render page. Decoding its query gives exactly action=TEMPLATE, the title, the meeting's dates, the details block `Meeting with …\n\nDescription: …\n\nClient Email: …`, the fixed location and the fixed organiser, in that order. |
| Booking.DecodedParameters | app/page.tsx:138 | For any event whose unencoded `dates` value has no `&`, `=` or `%` (which `DatesSafe` shows for every booked window), decoding the link's query gives the six parameters in order with the event's own values: no user text can add, drop, reorder or alter a parameter. |
| Booking.TemplateParameters | app/page.tsx:138 | For any event whose unencoded `dates` value has no `&` or `=` (which `DatesSafe` shows for every booked window), the link splits into the endpoint and six `key=value` parameters in the fixed order. Each value is the percent-encoded text, except `dates`, which appears unencoded. |
| Booking.LinkValues | app/page.tsx:130-138 | A booked link's `text` parameter is the encoded title. Its `dates` parameter is the start stamp, `/`, and the end stamp. |
| Booking.DatesSafe | app/page.tsx:132 | The unencoded dates value contains no `&`, `=` or `%`, so it cannot split the query or be mis-decoded. |
| Booking.DatesLayout | app/page.tsx:132 | With both stamps well-formed, the dates value is 33 characters. Its only `/` is at index 16, and every other character is a digit, `T` or `Z`. |
| Booking.StampedHour | app/page.tsx:123-132 | In years 0 to 9999, both stamps of a meeting have the 16-character shape. The instant the end stamp denotes is exactly 3,600,000 ms after the one the start stamp denotes, for any zone offset. |
| Booking.SlotText | app/page.tsx:98 | Slot `i` is hour 9 + i on the minute: 09:00 up to 17:00. |
| Booking.SlotStart | app/page.tsx:98-123 | A date from the date input combined with any slot is read as that date at the slot's hour, on the minute. |
| Booking.SlotDates | app/page.tsx:98-128 | With the host on UTC, booking slot `i` gives the stamps of the chosen date at hour 9 + i and hour 10 + i, on the same day. Each stamp reads back as exactly those fields. |
| Booking.SlotLink | app/page.tsx:98-138 | With the host on UTC, the link for any valid date and slot is produced, and its `dates` parameter is those two stamps joined by `/`. |
| Booking.ExampleBooking | app/page.tsx:115-138 | Jane Doe's request for "Project Discussion" at 09:00 on 2025-06-15 (host on UTC) gives `text=Project%20Discussion` and `dates=20250615T090000Z/20250615T100000Z`. |
| Booking.DecodeValues | app/page.tsx:138 | Decoding the parameter values keeps their keys and count. |
| IsoFormat.IsoString | app/page.tsx:126 | `toISOString` writes the UTC year (four digits, or a sign and six digits outside 0 to 9999), `-`, month, `-`, day, `T`, hour, `:`, minute, `:`, second, `.`, the three-digit millisecond and `Z`, each field zero-padded at its own position. |
| IsoFormat.Compact | app/page.tsx:127 | `formatDateTime` ends with `Z` and leaves no `-`, `:` or `.` before it. When the text left after deleting `-` and `:` has no `.`, it is that text plus `Z`. |
| IsoFormat.CompactStamp | app/page.tsx:126-128 | The stamp of a time value is the stamp built from its UTC fields. |
| IsoFormat.CompactIsFields | app/page.tsx:126-128 | `formatDateTime` applied to `toISOString`'s output is the year (a negative year's minus sign deleted, a `+` kept), month, day, `T`, hour, minute, second and `Z`. Exactly the separators, the fraction and a negative year's minus sign are removed. |
| IsoFormat.StampShape | app/page.tsx:126-128 | For a UTC year from 0 to 9999, the stamp has the shape `DDDDDDDDTDDDDDDZ` and reads back as the instant's UTC fields, milliseconds aside. |
| IsoFormat.StampDeterminesSecond | app/page.tsx:126-128 | Such a stamp fixes the instant to the second: it denotes the instant minus its milliseconds. |
| IsoFormat.StampSeparatorFree | app/page.tsx:127 | No stamp contains `-`, `:` or `.`, for any year. |
| IsoFormat.StampSafe | app/page.tsx:127-132 | No stamp contains `&`, `=`, `%` or `/`. |
| IsoFormat.StampChars | app/page.tsx:127 | A stamp holds only digits, `T`, `Z` and, for years above 9999, `+`. |
| IsoFormat.ParseLocal | app/page.tsx:123 | The local string is accepted only with a real calendar date in years 0 to 9999 and a valid time of day (or the end-of-day 24:00:00). |
| IsoFormat.ParseLocalText | app/page.tsx:123 | Every accepted date-time is read back from its `YYYY-MM-DDTHH:mm:ss` text. |
| IsoFormat.LocalTextParse | app/page.tsx:123 | Every string that is accepted is the text of the fields read from it, so two strings never read as the same date-time. |
| Calendar.FromInstant | app/page.tsx:127 | The UTC fields of any time value form a valid date and time of day. |
| Calendar.DateOfDay | app/page.tsx:127 | Every day number belongs to exactly one valid calendar date, which has that number. |
| Calendar.DayNumberInjective | app/page.tsx:127 | Distinct valid dates have distinct day numbers. |
| Calendar.InstantFields | app/page.tsx:123-127 | Splitting a time value into UTC fields and reassembling them gives the same time value. |
| Calendar.FieldsInstant | app/page.tsx:123-127 | Reassembling valid fields and splitting them again gives the same fields. |
| Calendar.MillisecondOf | app/page.tsx:127 | The millisecond field, which `formatDateTime` drops, is the time value modulo 1000. |
| Calendar.AddHour | app/page.tsx:124 | Adding 60 * 60 * 1000 ms to a date-time before 23:00 gives the same day, one hour later. |
| UriComponent.Encode | app/page.tsx:138 | `encodeURIComponent`'s output consists only of unescaped characters and `%XX` triples. |
| UriComponent.EncodedFormChars | app/page.tsx:138 | Encoded text holds only unescaped characters and `%`: never a space, `&`, `=`, `?`, `#`, `/` or line break. |
| UriComponent.DecodeEncode | app/page.tsx:138 | Decoding undoes encoding for every string. |
| UriComponent.DecodePlain | app/page.tsx:132-138 | Text without `%` decodes to itself, as the unencoded dates value does. |
| UriComponent.EncodeAppend | app/page.tsx:138 | Encoding works character by character, so it distributes over concatenation. |
| UriComponent.EncodeUnchanged | app/page.tsx:138 | Encoding never shortens text. It leaves text unchanged exactly when every character is unescaped. |
| Text.Split | app/page.tsx:127 | `split` always returns at least one piece, and no piece contains the separator. |
| Text.SplitJoin | app/page.tsx:127 | Splitting pieces that were joined with a separator they do not contain gives the pieces back. |
| Text.RemoveKeeps | app/page.tsx:127 | Deleting a set of characters keeps exactly the characters outside it. |
| Decimal.Fixed | app/page.tsx:127 | A zero-padded field has the requested width and only digits, and it reads back as its value when the value fits. |
| Theme.Initial | app/page.tsx:36-37 | A fresh provider is dark and not yet mounted, and its save effect leaves it unchanged. |
| Theme.StoredTheme | app/page.tsx:42 | Reading `theme` gives nothing from unavailable storage. From available storage it gives a value exactly when the key is present, and then the stored value. |
| Theme.LoadTheme | app/page.tsx:42-45 | Only a stored non-empty value changes the mode. Stored "dark" gives dark; any other non-empty value gives light. |
| Theme.SaveTheme | app/page.tsx:54 | Saving stores "dark" or "light" for the mode under `theme` and leaves every other key untouched. Unavailable storage stays unavailable. |
| Theme.Persist | app/page.tsx:52-60 | The save effect writes nothing before the provider has mounted and never changes the mode. |
| Theme.Mount | app/page.tsx:36-60 | After mounting, a stored "dark" gives dark and a stored "light" gives light. |
| Theme.Toggle | app/page.tsx:62 | Toggling flips the mode. |
| Theme.LoadSaved | app/page.tsx:42-54 | Loading what was saved to available storage restores the saved mode. |
| Theme.DefaultDark | app/page.tsx:36-54 | With no usable saved value the page is dark and, where storage works, saves "dark". |
| Theme.MountConsistent | app/page.tsx:39-60 | After mounting, the storage holds the current mode where storage works. |
| Theme.ToggleConsistent | app/page.tsx:52-62 | Where storage works, toggling keeps the stored mode equal to the current mode. |
| Theme.ToggleTwice | app/page.tsx:62 | Toggling twice restores the provider exactly, storage included. |
| Theme.ReloadRestores | app/page.tsx:36-60 | On available storage, reloading the page restores the mode and changes nothing. Without storage a reload starts dark again, as `DefaultDark` states. |
| Theme.MountIdempotent | app/page.tsx:39-60 | Mounting again on what a mount left behind changes nothing. |
| Theme.TogglesParity | app/page.tsx:62 | After `n` clicks the mode is the original exactly when `n` is even, and storage still holds it. |
| Theme.TogglesEven | app/page.tsx:62 | An even number of clicks restores the provider exactly. |

## Left out

- React rendering, JSX, framer-motion animations and the section components: they are markup with no behaviour to state.
- `window.open`, `alert`, `console.warn`/`console.error` and `document.documentElement.classList`: these are browser effects. Opening a tab and alerting are the `Effect` value the handler returns. The class-list toggle is not modelled.
- The host's time zone: it is the fixed offset parameter `zone`, so daylight-saving changes inside a meeting are not modelled. The slot and example lemmas assume a host on UTC.
- Lenient date parsing: engines accept many more date strings than the strict `YYYY-MM-DDTHH:mm:ss` layout. For a date input with a year from 1 to 9999 and a slot, the handler builds exactly that layout. A date input with a five-or-more-digit year (such as `10000-06-15`) gives a longer string, which the model treats as an invalid date; engines differ on such strings. Every other string is also treated as an invalid date.
- The ECMAScript time-value range limit of ±8.64e15 ms: parsed years lie between 0 and 9999, far inside it.
- Lone UTF-16 surrogates, on which `encodeURIComponent` throws: Dafny characters are Unicode scalar values, so such text cannot be represented.
- `formatDateForDisplay`/`toLocaleDateString` (app/page.tsx:100-113) and the date input's `min` attribute (app/page.tsx:232): these depend on the locale and the clock.
- `AnimatedBackground` (app/page.tsx:304-350): it uses `Math.random` and floating point.
- app/layout.tsx and next.config.js: they hold static metadata and build configuration only.
- Calling `toggleTheme` before the provider has mounted: the provider renders a placeholder without its children until then. `Toggle` flips the mode and `Persist` skips the save.
- A failing `setItem` on otherwise readable storage: storage is either fully available or fully unavailable.
- IsoFormat.StampShape: the 16-character shape is proved only for UTC years 0 to 9999. Outside that range `toISOString` writes a signed six-digit year. The stamp is then 18 characters for a negative year and 19 for a year above 9999, where the `+` stays. A negative year loses its minus sign; a year above 9999 keeps a `+`, which the unencoded `dates` value would carry into the link.

=== FILE: arith.dfy ===
/** Facts about Euclidean division that the calendar and the UTF-8 coder use. */
module Arithmetic {

  /** Splitting `v` by a positive divisor `d` is unique: if `v == q * d + r`
      with `0 <= r < d`, then `q` and `r` are the quotient and remainder. */
  lemma DivModUnique(v: int, d: int, q: int, r: int)
    requires d > 0 && v == q * d + r && 0 <= r < d
    ensures v / d == q && v % d == r
  {
    var q', r' := v / d, v % d;
    assert (q - q') * d == r' - r;
    if q' < q {
      AtLeastDivisor(q - q', d);
    } else if q < q' {
      AtLeastDivisor(q' - q, d);
    }
  }

  lemma AtLeastDivisor(k: int, d: int)
    requires k >= 1 && d > 0
    ensures k * d >= d
  {
    assert k * d == (k - 1) * d + d;
    assert (k - 1) * d >= 0;
  }
}

=== FILE: booking.dfy ===
/** The meeting-booking handler of the portfolio page (`handleBookMeeting`):
    it checks the required form fields, turns the chosen date and time slot
    into a one-hour window, and composes a Google Calendar event-template
    link whose free-text parameters are percent-encoded. */
module Booking {
  import opened Results
  import opened Arithmetic
  import opened Decimal
  import opened Text
  import opened Calendar
  import opened IsoFormat
  import opened UriComponent

  /** The start times the form offers, one per hour from 09:00 to 17:00. */
  const TimeSlots: seq<string> :=
    ["09:00", "10:00", "11:00", "12:00", "13:00", "14:00", "15:00", "16:00", "17:00"]

  /** Every meeting lasts one hour: 60 * 60 * 1000 milliseconds. */
  const MeetingLength := 60 * 60 * 1000

  const CalendarEndpoint := "https://calendar.google.com/calendar/render"
  const Location := "Video Call (Link will be shared)"
  const Organizer := "ikramaansari312@gmail.com"
  const MissingFieldsMessage := "Please fill in all required fields"
  const BookingErrorMessage := "There was an error booking the meeting. Please try again."

  /** The booking modal's state: whether it is open, and its six text fields. */
  datatype BookingForm = BookingForm(
    isOpen: bool,
    selectedDate: string,
    selectedTime: string,
    meetingTitle: string,
    meetingDescription: string,
    clientName: string,
    clientEmail: string)

  /** The form after a successful booking: closed, every field reset. */
  const ClearedForm := BookingForm(false, "", "", "", "", "", "")

  /** The five fields the handler insists on. JavaScript's `!s` is true of a
      string exactly when it is empty, so whitespace counts as filled in and
      the description is optional. */
  predicate HasRequiredFields(f: BookingForm) {
    && f.selectedDate != "" && f.selectedTime != "" && f.meetingTitle != ""
    && f.clientName != "" && f.clientEmail != ""
  }

  datatype BookingError =
    | MissingFields   // the `alert` of the validation guard
    | InvalidDate     // `toISOString` throws and the `catch` alerts

  /** The string handed to `new Date`: `${selectedDate}T${selectedTime}:00`. */
  function LocalStart(f: BookingForm): (r: string)
    ensures |r| == |f.selectedDate| + |f.selectedTime| + 4
    ensures r[..|f.selectedDate|] == f.selectedDate && r[|f.selectedDate|] == 'T'
    ensures r[|f.selectedDate| + 1..|r| - 3] == f.selectedTime && r[|r| - 3..] == ":00"
  {
    f.selectedDate + "T" + f.selectedTime + ":00"
  }

  /** A meeting's start and end as time values (milliseconds since 1970 UTC). */
  datatype MeetingWindow = MeetingWindow(start: int, end: int)

  /** The window of a meeting starting at the local date-time `local`;
      `zone` is the host's fixed offset from UTC in minutes (east positive),
      which `new Date` subtracts to reach UTC. */
  function Window(local: DateTime, zone: int): (w: MeetingWindow)
    requires 1 <= local.month <= 12
    ensures w.end - w.start == MsPerHour
    ensures w.start + zone * MsPerMinute == ToInstant(local)
  {
    var start := ToInstant(local) - zone * MsPerMinute;
    MeetingWindow(start, start + MeetingLength)
  }

  /** The `dates` parameter: both stamps joined by `/`, not percent-encoded. */
  function DatesValue(w: MeetingWindow): (r: string)
    ensures Split(r, '/') == [CompactStamp(w.start), CompactStamp(w.end)]
  {
    var a, b := CompactStamp(w.start), CompactStamp(w.end);
    StampSafe(w.start);
    StampSafe(w.end);
    SplitPair(a, b, '/');
    a + "/" + b
  }

  /** The `details` parameter before encoding. */
  function Details(name: string, description: string, email: string): (r: string)
    ensures |r| == 44 + |name| + |description| + |email|
    ensures r[..13] == "Meeting with " && r[13..13 + |name|] == name
    ensures r[13 + |name|..28 + |name|] == "\n\nDescription: "
    ensures r[28 + |name|..28 + |name| + |description|] == description
    ensures r[28 + |name| + |description|..|r| - |email|] == "\n\nClient Email: "
    ensures r[|r| - |email|..] == email
  {
    "Meeting with " + name + "\n\nDescription: " + description + "\n\nClient Email: " + email
  }

  /** The handler's link template, filled with the parameter values as they
      appear in the link, in the handler's fixed order. */
  function Link(text: string, dates: string, details: string, location: string, add: string): string {
    CalendarEndpoint + "?action=TEMPLATE"
      + "&text=" + text
      + "&dates=" + dates
      + "&details=" + details
      + "&location=" + location
      + "&add=" + add
  }

  /** The five values of a calendar event, before encoding. */
  datatype EventDetails = EventDetails(
    text: string, dates: string, details: string, location: string, add: string)

  /** The event the handler fills in for a form and a parsed local start. */
  function EventOf(f: BookingForm, local: DateTime, zone: int): EventDetails
    requires 1 <= local.month <= 12
  {
    EventDetails(f.meetingTitle, DatesValue(Window(local, zone)),
                 Details(f.clientName, f.meetingDescription, f.clientEmail),
                 Location, Organizer)
  }

  /** The event-template link: every value but `dates` percent-encoded. */
  function EventUrl(e: EventDetails): string {
    Link(Encode(e.text), e.dates, Encode(e.details), Encode(e.location), Encode(e.add))
  }

  /** The link the handler opens for a form, or why it opens none. */
  function BookingLink(f: BookingForm, zone: int): (r: Result<string, BookingError>)
    ensures r == Failure(MissingFields) <==> !HasRequiredFields(f)
    ensures r == Failure(InvalidDate) <==> HasRequiredFields(f) && ParseLocal(LocalStart(f)).None?
  {
    if !HasRequiredFields(f) then Failure(MissingFields)
    else match ParseLocal(LocalStart(f))
      case None => Failure(InvalidDate)
      case Some(local) =>
        Success(EventUrl(EventOf(f, local, zone)))
  }

  /** What the handler does outside the form: open a tab or show an alert. */
  datatype Effect = OpenTab(url: string) | Alert(message: string)

  datatype Step = Step(effect: Effect, form: BookingForm)

  /** One click on "Book Meeting". A missing field or an invalid date alerts
      and leaves the form exactly as it was; a booking opens the link and
      closes and clears the form. */
  function HandleBookMeeting(f: BookingForm, zone: int): (r: Step)
    ensures !HasRequiredFields(f) ==> r == Step(Alert(MissingFieldsMessage), f)
    ensures r.effect.OpenTab? <==> HasRequiredFields(f) && ParseLocal(LocalStart(f)).Some?
    ensures r.effect.OpenTab? ==> r.form == ClearedForm && BookingLink(f, zone) == Success(r.effect.url)
    ensures HasRequiredFields(f) && ParseLocal(LocalStart(f)).None?
         ==> r == Step(Alert(BookingErrorMessage), f)
    ensures r.effect.Alert? ==> r.form == f
  {
    var link := BookingLink(f, zone);
    assert HasRequiredFields(f) && ParseLocal(LocalStart(f)).None? ==> link == Failure(InvalidDate);
    match link
    case Success(url) => Step(OpenTab(url), ClearedForm)
    case Failure(MissingFields) => Step(Alert(MissingFieldsMessage), f)
    case Failure(InvalidDate) => Step(Alert(BookingErrorMessage), f)
  }

  // ---------------------------------------------------------------------
  // Reading a link back: the query-string view a calendar service takes.

  /** The part of a URL before its first `?`. */
  function Endpoint(url: string): string {
    Split(url, '?')[0]
  }

  /** The query: everything after the first `?` (empty if there is none). */
  function Query(url: string): string {
    match IndexOf(url, '?')
    case None => []
    case Some(i) => url[i + 1..]
  }

  function KeyValues(segments: seq<string>): (kvs: seq<(string, string)>)
    ensures |kvs| == |segments|
  {
    if |segments| == 0 then [] else [SplitFirst(segments[0], '=')] + KeyValues(segments[1..])
  }

  /** The query's `key=value` pairs, split at each `&` and each pair's first `=`. */
  function Parameters(url: string): seq<(string, string)> {
    KeyValues(Split(Query(url), '&'))
  }

  /** One `key=value` query segment. */
  function Param(key: string, value: string): string {
    key + "=" + value
  }

  /** The six segments of a link, in order, given the values as they appear
      in the link. */
  function Segments(text: string, dates: string, details: string, location: string, add: string): seq<string> {
    [ Param("action", "TEMPLATE"),
      Param("text", text),
      Param("dates", dates),
      Param("details", details),
      Param("location", location),
      Param("add", add) ]
  }

  /** The literal pieces of the link template, taken apart. */
  lemma TemplateLiterals()
    ensures "?action=TEMPLATE" == "?" + Param("action", "TEMPLATE")
    ensures "&text=" == "&" + "text" + "="
    ensures "&dates=" == "&" + "dates" + "="
    ensures "&details=" == "&" + "details" + "="
    ensures "&location=" == "&" + "location" + "="
    ensures "&add=" == "&" + "add" + "="
  {
  }

  lemma KeyLiterals()
    ensures '=' !in "action" && '=' !in "text" && '=' !in "dates"
    ensures '=' !in "details" && '=' !in "location" && '=' !in "add"
    ensures '&' !in Param("action", "TEMPLATE")
    ensures '&' !in "text" && '&' !in "dates" && '&' !in "details" && '&' !in "location" && '&' !in "add"
  {
  }

  lemma JoinSix(a: string, b: string, c: string, d: string, e: string, g: string)
    ensures Join([a, b, c, d, e, g], '&') == a + "&" + b + "&" + c + "&" + d + "&" + e + "&" + g
  {
    var s := [a, b, c, d, e, g];
    assert s[5..] == [g];
    assert s[4..][1..] == s[5..];
    assert s[3..][1..] == s[4..];
    assert s[2..][1..] == s[3..];
    assert s[1..][1..] == s[2..];
    assert Join(s[4..], '&') == e + "&" + g;
    assert Join(s[3..], '&') == d + "&" + (e + "&" + g);
    assert Join(s[2..], '&') == c + "&" + (d + "&" + (e + "&" + g));
    assert Join(s[1..], '&') == b + "&" + (c + "&" + (d + "&" + (e + "&" + g)));
  }

  /** Appending `&key=` and then a value to `p + j` appends the segment
      `key=value` to `j`. */
  lemma AppendSegment(p: string, j: string, glue: string, key: string, v: string)
    requires glue == "&" + key + "="
    ensures p + j + glue + v == p + (j + "&" + Param(key, v))
  {
  }

  /** The link is the endpoint, `?`, and the segments joined by `&`. */
  lemma LinkIsJoin(text: string, dates: string, details: string, location: string, add: string)
    ensures Link(text, dates, details, location, add)
         == CalendarEndpoint + "?" + Join(Segments(text, dates, details, location, add), '&')
  {
    var s := Segments(text, dates, details, location, add);
    JoinSix(s[0], s[1], s[2], s[3], s[4], s[5]);
    TemplateLiterals();
    var p := CalendarEndpoint + "?";
    assert CalendarEndpoint + "?action=TEMPLATE" == p + s[0];
    AppendSegment(p, s[0], "&text=", "text", text);
    var j2 := s[0] + "&" + s[1];
    AppendSegment(p, j2, "&dates=", "dates", dates);
    var j3 := j2 + "&" + s[2];
    AppendSegment(p, j3, "&details=", "details", details);
    var j4 := j3 + "&" + s[3];
    AppendSegment(p, j4, "&location=", "location", location);
    var j5 := j4 + "&" + s[4];
    AppendSegment(p, j5, "&add=", "add", add);
  }

  /** A segment splits back into its key and value when the key has no `=`. */
  lemma SplitKeyValue(key: string, value: string)
    requires '=' !in key
    ensures SplitFirst(Param(key, value), '=') == (key, value)
  {
    var s := Param(key, value);
    IndexOfAppend(key, "=" + value, '=');
    assert s == key + ("=" + value);
    assert s[..|key|] == key;
    assert s[|key| + 1..] == value;
  }

  lemma EncodedSafe(s: string)
    ensures '&' !in Encode(s) && '=' !in Encode(s) && '?' !in Encode(s)
  {
    EncodedFormChars(Encode(s));
  }

  lemma EndpointHasNoQuery()
    ensures '?' !in CalendarEndpoint
  {
  }

  /** Whatever query follows it, the endpoint and the query read back. */
  lemma EndpointQuery(query: string)
    ensures Endpoint(CalendarEndpoint + "?" + query) == CalendarEndpoint
    ensures Query(CalendarEndpoint + "?" + query) == query
  {
    var url := CalendarEndpoint + "?" + query;
    EndpointHasNoQuery();
    IndexOfAppend(CalendarEndpoint, "?" + query, '?');
    assert url == CalendarEndpoint + ("?" + query);
    SplitHead(CalendarEndpoint, query, '?');
    assert url[|CalendarEndpoint| + 1..] == query;
  }

  /** The endpoint of a link is the calendar's render page and its query is
      the segments joined by `&`. */
  lemma LinkParts(text: string, dates: string, details: string, location: string, add: string)
    ensures Endpoint(Link(text, dates, details, location, add)) == CalendarEndpoint
    ensures Query(Link(text, dates, details, location, add))
         == Join(Segments(text, dates, details, location, add), '&')
  {
    LinkIsJoin(text, dates, details, location, add);
    EndpointQuery(Join(Segments(text, dates, details, location, add), '&'));
  }

  lemma ParamNoAmpersand(key: string, value: string)
    requires '&' !in key && '&' !in value
    ensures '&' !in Param(key, value)
  {
  }

  lemma SegmentsSplit(text: string, dates: string, details: string, location: string, add: string)
    requires '&' !in text && '&' !in dates && '&' !in details && '&' !in location && '&' !in add
    ensures Split(Join(Segments(text, dates, details, location, add), '&'), '&')
         == Segments(text, dates, details, location, add)
  {
    KeyLiterals();
    ParamNoAmpersand("text", text);
    ParamNoAmpersand("dates", dates);
    ParamNoAmpersand("details", details);
    ParamNoAmpersand("location", location);
    ParamNoAmpersand("add", add);
    SplitJoin(Segments(text, dates, details, location, add), '&');
  }

  lemma SegmentsKeyValues(text: string, dates: string, details: string, location: string, add: string)
    ensures KeyValues(Segments(text, dates, details, location, add))
         == [ ("action", "TEMPLATE"),
              ("text", text),
              ("dates", dates),
              ("details", details),
              ("location", location),
              ("add", add) ]
  {
    var segs := Segments(text, dates, details, location, add);
    KeyValuesSix(segs[0], segs[1], segs[2], segs[3], segs[4], segs[5]);
    KeyLiterals();
    SplitKeyValue("action", "TEMPLATE");
    SplitKeyValue("text", text);
    SplitKeyValue("dates", dates);
    SplitKeyValue("details", details);
    SplitKeyValue("location", location);
    SplitKeyValue("add", add);
  }

  lemma KeyValuesSix(a: string, b: string, c: string, d: string, e: string, g: string)
    ensures KeyValues([a, b, c, d, e, g])
         == [SplitFirst(a, '='), SplitFirst(b, '='), SplitFirst(c, '='),
             SplitFirst(d, '='), SplitFirst(e, '='), SplitFirst(g, '=')]
  {
    var s := [a, b, c, d, e, g];
    assert s[5..][1..] == [];
    assert KeyValues(s[5..]) == [SplitFirst(g, '=')];
    assert s[4..][1..] == s[5..];
    assert KeyValues(s[4..]) == [SplitFirst(e, '=')] + KeyValues(s[5..]);
    assert s[3..][1..] == s[4..];
    assert KeyValues(s[3..]) == [SplitFirst(d, '=')] + KeyValues(s[4..]);
    assert s[2..][1..] == s[3..];
    assert KeyValues(s[2..]) == [SplitFirst(c, '=')] + KeyValues(s[3..]);
    assert s[1..][1..] == s[2..];
    assert KeyValues(s[1..]) == [SplitFirst(b, '=')] + KeyValues(s[2..]);
  }

  /** A calendar service reading a link sees the endpoint and exactly six
      parameters, in the order action, text, dates, details, location, add,
      each value the one the handler put there: no text placed in a
      parameter, whatever characters it holds, can add, drop or reorder one. */
  lemma TemplateParameters(e: EventDetails)
    requires '&' !in e.dates && '=' !in e.dates
    ensures Endpoint(EventUrl(e)) == CalendarEndpoint
    ensures Parameters(EventUrl(e))
         == [ ("action", "TEMPLATE"),
              ("text", Encode(e.text)),
              ("dates", e.dates),
              ("details", Encode(e.details)),
              ("location", Encode(e.location)),
              ("add", Encode(e.add)) ]
  {
    LinkParts(Encode(e.text), e.dates, Encode(e.details), Encode(e.location), Encode(e.add));
    EncodedSafe(e.text);
    EncodedSafe(e.details);
    EncodedSafe(e.location);
    EncodedSafe(e.add);
    SegmentsSplit(Encode(e.text), e.dates, Encode(e.details), Encode(e.location), Encode(e.add));
    SegmentsKeyValues(Encode(e.text), e.dates, Encode(e.details), Encode(e.location), Encode(e.add));
  }

  // ---------------------------------------------------------------------
  // Properties of the links the handler opens.

  /** The `dates` value holds no `&`, `=` or `%`: it needs no encoding and
      cannot break the query apart. */
  lemma DatesSafe(w: MeetingWindow)
    ensures '&' !in DatesValue(w) && '=' !in DatesValue(w) && '%' !in DatesValue(w)
  {
    StampSafe(w.start);
    StampSafe(w.end);
    var a, b := CompactStamp(w.start), CompactStamp(w.end);
    assert DatesValue(w) == a + "/" + b;
  }

  /** The parameters with their values percent-decoded, or None if a value
      is not well-formed percent-encoding. */
  function DecodeValues(ps: seq<(string, string)>): (r: Option<seq<(string, string)>>)
    ensures r.Some? ==> |r.value| == |ps|
    ensures r.Some? ==> forall k :: 0 <= k < |ps| ==> r.value[k].0 == ps[k].0
  {
    if |ps| == 0 then Some([])
    else match (Decode(ps[0].1), DecodeValues(ps[1..]))
      case (Some(v), Some(rest)) => Some([(ps[0].0, v)] + rest)
      case _ => None
  }

  /** Decoding succeeds on a list of parameters whenever it succeeds on each
      value, and gives each key with its decoded value. */
  lemma {:induction false} DecodeValuesEach(ps: seq<(string, string)>, plain: seq<(string, string)>)
    requires |ps| == |plain|
    requires forall i :: 0 <= i < |ps| ==> ps[i].0 == plain[i].0 && Decode(ps[i].1) == Some(plain[i].1)
    ensures DecodeValues(ps) == Some(plain)
    decreases |ps|
  {
    if |ps| > 0 {
      DecodeValuesEach(ps[1..], plain[1..]);
      assert plain == [(ps[0].0, plain[0].1)] + plain[1..];
    }
  }

  lemma ActionDecodes()
    ensures Decode("TEMPLATE") == Some("TEMPLATE")
  {
    DecodePlain("TEMPLATE");
  }

  /** Decoding the six values of an event's link gives back the event. */
  lemma DecodeSix(e: EventDetails)
    requires '%' !in e.dates
    ensures DecodeValues([ ("action", "TEMPLATE"),
                           ("text", Encode(e.text)),
                           ("dates", e.dates),
                           ("details", Encode(e.details)),
                           ("location", Encode(e.location)),
                           ("add", Encode(e.add)) ])
         == Some(EventParameters(e))
  {
    var ps := [ ("action", "TEMPLATE"),
                ("text", Encode(e.text)),
                ("dates", e.dates),
                ("details", Encode(e.details)),
                ("location", Encode(e.location)),
                ("add", Encode(e.add)) ];
    var plain := EventParameters(e);
    forall i | 0 <= i < |ps|
      ensures ps[i].0 == plain[i].0 && Decode(ps[i].1) == Some(plain[i].1)
    {
      if i == 0 {
        ActionDecodes();
      } else if i == 1 {
        DecodeEncode(e.text);
      } else if i == 2 {
        DecodePlain(e.dates);
      } else if i == 3 {
        DecodeEncode(e.details);
      } else if i == 4 {
        DecodeEncode(e.location);
      } else {
        DecodeEncode(e.add);
      }
    }
    DecodeValuesEach(ps, plain);
  }

  /** The parameters an event is meant to carry, in the link's order. */
  function EventParameters(e: EventDetails): seq<(string, string)> {
    [ ("action", "TEMPLATE"),
      ("text", e.text),
      ("dates", e.dates),
      ("details", e.details),
      ("location", e.location),
      ("add", e.add) ]
  }

  /** Any event's link reads back as the calendar endpoint and the six
      parameters in their fixed order, and decoding their values gives back
      the event: no text placed in a value, whatever characters it holds,
      can add, drop, reorder or alter a parameter. */
  lemma DecodedParameters(e: EventDetails)
    requires '&' !in e.dates && '=' !in e.dates && '%' !in e.dates
    ensures Endpoint(EventUrl(e)) == CalendarEndpoint
    ensures DecodeValues(Parameters(EventUrl(e))) == Some(EventParameters(e))
  {
    TemplateParameters(e);
    DecodeSix(e);
  }

  /** The link of a successful booking, spelled out. */
  lemma BookingLinkOf(f: BookingForm, zone: int)
    requires BookingLink(f, zone).Success?
    ensures ParseLocal(LocalStart(f)).Some?
    ensures BookingLink(f, zone).value == EventUrl(EventOf(f, ParseLocal(LocalStart(f)).value, zone))
  {
  }

  /** A booked link reads back as the calendar endpoint followed by the six
      parameters in their fixed order, and decoding their values gives back
      exactly the title, the dates of the meeting's window, the details
      block, the fixed location and the fixed organiser address. */
  lemma BookingParameters(f: BookingForm, zone: int)
    requires BookingLink(f, zone).Success?
    ensures ParseLocal(LocalStart(f)).Some?
    ensures Endpoint(BookingLink(f, zone).value) == CalendarEndpoint
    ensures DecodeValues(Parameters(BookingLink(f, zone).value))
        == Some([ ("action", "TEMPLATE"),
                  ("text", f.meetingTitle),
                  ("dates", DatesValue(Window(ParseLocal(LocalStart(f)).value, zone))),
                  ("details", Details(f.clientName, f.meetingDescription, f.clientEmail)),
                  ("location", Location),
                  ("add", Organizer) ])
  {
    BookingLinkOf(f, zone);
    var local := ParseLocal(LocalStart(f)).value;
    var e := EventOf(f, local, zone);
    DatesSafe(Window(local, zone));
    DecodedParameters(e);
    assert EventParameters(e)
        == [ ("action", "TEMPLATE"),
             ("text", f.meetingTitle),
             ("dates", e.dates),
             ("details", Details(f.clientName, f.meetingDescription, f.clientEmail)),
             ("location", Location),
             ("add", Organizer) ];
  }

  /** When both stamps have the 16-character shape, the `dates` value is 33
      characters: the start stamp, the single `/` at index 16, the end
      stamp, and nothing but digits, `T` and `Z` besides. */
  lemma DatesLayout(w: MeetingWindow)
    requires IsStampShape(CompactStamp(w.start)) && IsStampShape(CompactStamp(w.end))
    ensures |DatesValue(w)| == 33
    ensures forall k :: 0 <= k < 33 ==> (DatesValue(w)[k] == '/' <==> k == 16)
    ensures forall k :: 0 <= k < 33 && k != 16 ==>
              IsDigit(DatesValue(w)[k]) || DatesValue(w)[k] == 'T' || DatesValue(w)[k] == 'Z'
  {
    var a, b := CompactStamp(w.start), CompactStamp(w.end);
    assert DatesValue(w) == a + "/" + b;
    StampPairLayout(a, b);
  }

  lemma StampPairLayout(a: string, b: string)
    requires IsStampShape(a) && IsStampShape(b)
    ensures var v := a + "/" + b;
      && |v| == 33
      && (forall k :: 0 <= k < 33 ==> (v[k] == '/' <==> k == 16))
      && (forall k :: 0 <= k < 33 && k != 16 ==> IsDigit(v[k]) || v[k] == 'T' || v[k] == 'Z')
  {
    var v := a + "/" + b;
    assert forall k :: 0 <= k < 16 ==> v[k] == a[k];
    assert forall k :: 17 <= k < 33 ==> v[k] == b[k - 17];
  }

  /** A meeting starts on a whole second, whatever the zone offset. */
  lemma WindowWholeSeconds(local: DateTime, zone: int)
    requires AcceptedLocal(local)
    ensures Window(local, zone).start % MsPerSecond == 0
  {
    WholeSecond(local);
    var k := ToInstant(local) / MsPerSecond - zone * 60;
    DivModUnique(Window(local, zone).start, MsPerSecond, k, 0);
  }

  /** A later instant never falls in an earlier year. */
  lemma YearsOrdered(a: int, b: int)
    requires a <= b
    ensures FromInstant(a).year <= FromInstant(b).year
  {
    var ta, tb := FromInstant(a), FromInstant(b);
    InstantFields(a);
    InstantFields(b);
    if tb.year < ta.year {
      YearStep(tb.year);
      MonthStep(tb.year, tb.month);
      YearsIncrease(tb.year + 1, ta.year);
      assert false;
    }
  }

  /** An hour from a whole second, within years 0 to 9999: both stamps have
      the 16-character shape and denote instants exactly one hour apart. */
  lemma StampedHourFrom(s: int)
    requires s % MsPerSecond == 0
    requires 0 <= FromInstant(s).year && FromInstant(s + MeetingLength).year <= 9999
    ensures IsStampShape(CompactStamp(s)) && IsStampShape(CompactStamp(s + MeetingLength))
    ensures 1 <= ParseStamp(CompactStamp(s)).value.month <= 12
    ensures 1 <= ParseStamp(CompactStamp(s + MeetingLength)).value.month <= 12
    ensures ToInstant(ParseStamp(CompactStamp(s + MeetingLength)).value)
         == ToInstant(ParseStamp(CompactStamp(s)).value) + MeetingLength
  {
    YearsOrdered(s, s + MeetingLength);
    DivModUnique(s + MeetingLength, MsPerSecond, s / MsPerSecond + 3600, 0);
    StampShape(s);
    StampShape(s + MeetingLength);
    StampDeterminesSecond(s);
    StampDeterminesSecond(s + MeetingLength);
  }

  /** The two stamps of a meeting whose ends fall in years 0 to 9999 have the
      16-character shape, and the end they denote is exactly one hour
      (3,600,000 ms) after the start they denote. */
  lemma StampedHour(local: DateTime, zone: int)
    requires AcceptedLocal(local)
    requires 0 <= FromInstant(Window(local, zone).start).year
    requires FromInstant(Window(local, zone).end).year <= 9999
    ensures var w := Window(local, zone);
      && IsStampShape(CompactStamp(w.start)) && IsStampShape(CompactStamp(w.end))
      && 1 <= ParseStamp(CompactStamp(w.start)).value.month <= 12
      && 1 <= ParseStamp(CompactStamp(w.end)).value.month <= 12
      && ToInstant(ParseStamp(CompactStamp(w.end)).value)
         == ToInstant(ParseStamp(CompactStamp(w.start)).value) + MeetingLength
  {
    WindowWholeSeconds(local, zone);
    StampedHourFrom(Window(local, zone).start);
  }

  // ---------------------------------------------------------------------
  // The offered slots.

  /** What a date input holds for a calendar date: `YYYY-MM-DD`. */
  function DateInput(y: nat, m: nat, d: nat): string {
    Fixed(y, 4) + "-" + Fixed(m, 2) + "-" + Fixed(d, 2)
  }

  /** The slots run on the hour from 09:00 to 17:00, one hour apart. */
  lemma SlotText(i: nat)
    requires i < |TimeSlots|
    ensures TimeSlots[i] == Fixed(9 + i, 2) + ":" + Fixed(0, 2)
  {
    TwoDigits(9 + i);
    TwoDigits(0);
    SlotDigits(i);
  }

  lemma SlotDigits(i: nat)
    requires i < |TimeSlots|
    ensures TimeSlots[i] == [DigitChar((9 + i) / 10), DigitChar((9 + i) % 10)] + ":" + [DigitChar(0), DigitChar(0)]
  {
    if i == 0 {} else if i == 1 {} else if i == 2 {} else if i == 3 {} else if i == 4 {}
    else if i == 5 {} else if i == 6 {} else if i == 7 {} else {}
  }

  lemma TwoDigits(n: nat)
    requires n < 100
    ensures Fixed(n, 2) == [DigitChar(n / 10), DigitChar(n % 10)]
  {
    assert Fixed(n / 10, 1) == Fixed(n / 100, 0) + [DigitChar(n / 10 % 10)];
  }

  /** A date picked in the date input with a slot picked from the list is
      read by `new Date` as that date at the slot's hour, on the minute. */
  lemma SlotStart(f: BookingForm, y: nat, m: nat, d: nat, i: nat)
    requires y <= 9999 && ValidDate(y, m, d) && i < |TimeSlots|
    requires f.selectedDate == DateInput(y, m, d) && f.selectedTime == TimeSlots[i]
    ensures ParseLocal(LocalStart(f)) == Some(DateTime(y, m, d, 9 + i, 0, 0, 0))
  {
    var t := DateTime(y, m, d, 9 + i, 0, 0, 0);
    SlotText(i);
    assert ":00" == ":" + Fixed(0, 2);
    assert LocalStart(f) == LocalText(t);
    ParseLocalText(t);
  }

  /** With the host on UTC, booking slot `i` on a date sends the stamps of
      that date at hour 9 + i and at hour 10 + i, and each stamp reads back
      as exactly that date and hour. */
  lemma SlotDates(f: BookingForm, y: nat, m: nat, d: nat, i: nat)
    requires y <= 9999 && ValidDate(y, m, d) && i < |TimeSlots|
    requires f.selectedDate == DateInput(y, m, d) && f.selectedTime == TimeSlots[i]
    requires f.meetingTitle != "" && f.clientName != "" && f.clientEmail != ""
    ensures BookingLink(f, 0).Success?
    ensures ParseLocal(LocalStart(f)) == Some(DateTime(y, m, d, 9 + i, 0, 0, 0))
    ensures var start, end := DateTime(y, m, d, 9 + i, 0, 0, 0), DateTime(y, m, d, 10 + i, 0, 0, 0);
      && DatesValue(Window(ParseLocal(LocalStart(f)).value, 0)) == StampOf(start) + "/" + StampOf(end)
      && ParseStamp(StampOf(start)) == Some(start)
      && ParseStamp(StampOf(end)) == Some(end)
  {
    var start := DateTime(y, m, d, 9 + i, 0, 0, 0);
    SlotStart(f, y, m, d, i);
    assert HasRequiredFields(f);
    var end := start.(hour := 10 + i);
    var w := Window(start, 0);
    assert w.start == ToInstant(start);
    assert w.end == ToInstant(start) + MsPerHour;
    FieldsInstant(start);
    AddHour(start);
    assert DatesValue(w) == StampOf(start) + "/" + StampOf(end);
    StampOfShape(start);
    StampOfShape(end);
  }

  /** With the host on UTC, the link for slot `i` on a date carries, as its
      `dates` parameter, the stamps of that date at hour 9 + i and 10 + i. */
  lemma SlotLink(f: BookingForm, y: nat, m: nat, d: nat, i: nat, start: DateTime, end: DateTime)
    requires y <= 9999 && ValidDate(y, m, d) && i < |TimeSlots|
    requires f.selectedDate == DateInput(y, m, d) && f.selectedTime == TimeSlots[i]
    requires f.meetingTitle != "" && f.clientName != "" && f.clientEmail != ""
    requires start == DateTime(y, m, d, 9 + i, 0, 0, 0) && end == DateTime(y, m, d, 10 + i, 0, 0, 0)
    ensures BookingLink(f, 0).Success?
    ensures |Parameters(BookingLink(f, 0).value)| == 6
    ensures Parameters(BookingLink(f, 0).value)[2] == ("dates", StampOf(start) + "/" + StampOf(end))
  {
    SlotDates(f, y, m, d, i);
    LinkValues(f, 0);
  }

  // ---------------------------------------------------------------------
  // A worked booking.

  lemma SpaceEncoding()
    ensures Encode(" ") == "%20"
  {
    var sp := " ";
    assert Utf8(' ') == [32];
    assert HexChar(2) == '2' && HexChar(0) == '0';
    assert Percent(32) == "%20";
    assert PercentAll([32]) == Percent(32) + PercentAll([]);
    assert EncodeChar(' ') == "%20";
    assert sp[1..] == [];
    assert Encode(sp) == EncodeChar(' ') + Encode([]);
  }

  /** Two words joined by a space encode as the words joined by `%20`. */
  lemma EncodeWords(a: string, b: string)
    requires forall i :: 0 <= i < |a| ==> IsUnescaped(a[i])
    requires forall i :: 0 <= i < |b| ==> IsUnescaped(b[i])
    ensures Encode(a + " " + b) == a + "%20" + b
  {
    EncodeAppend(a + " ", b);
    EncodeAppend(a, " ");
    EncodeUnchanged(a);
    EncodeUnchanged(b);
    SpaceEncoding();
  }

  lemma TitleWords()
    ensures "Project" + " " + "Discussion" == "Project Discussion"
    ensures "Project" + "%20" + "Discussion" == "Project%20Discussion"
  {
  }

  lemma TitleEncoding(title: string)
    requires title == "Project Discussion"
    ensures Encode(title) == "Project%20Discussion"
  {
    EncodeWords("Project", "Discussion");
    TitleWords();
  }

  /** Four digits are the two digits of the hundreds followed by the two
      digits of the rest. */
  lemma FourDigits(n: nat)
    ensures Fixed(n, 4) == Fixed(n / 100, 2) + Fixed(n % 100, 2)
  {
    DivModUnique(n / 10, 10, n / 100, n % 100 / 10);
    DivModUnique(n, 10, n / 10, n % 100 % 10);
    TwoDigits(n % 100);
    assert Fixed(n, 4) == Fixed(n / 10, 3) + [DigitChar(n % 10)];
    assert Fixed(n / 10, 3) == Fixed(n / 100, 2) + [DigitChar(n / 10 % 10)];
  }

  /** A four-digit number padded to four places is its four digits. */
  lemma FourDigitChars(n: nat, a: nat, b: nat, c: nat, d: nat)
    requires a < 10 && b < 10 && c < 10 && d < 10
    requires n == 1000 * a + 100 * b + 10 * c + d
    ensures Fixed(n, 4) == [DigitChar(a), DigitChar(b), DigitChar(c), DigitChar(d)]
  {
    var hi, lo := 10 * a + b, 10 * c + d;
    assert Fixed(n, 4) == Fixed(hi, 2) + Fixed(lo, 2) by {
      DivModUnique(n, 100, hi, lo);
      FourDigits(n);
    }
    assert Fixed(hi, 2) == [DigitChar(a), DigitChar(b)] by {
      DivModUnique(hi, 10, a, b);
      TwoDigits(hi);
    }
    assert Fixed(lo, 2) == [DigitChar(c), DigitChar(d)] by {
      DivModUnique(lo, 10, c, d);
      TwoDigits(lo);
    }
  }

  lemma ExampleYear(y: nat)
    requires y == 2025
    ensures Fixed(y, 4) == "2025"
  {
    FourDigitChars(y, 2, 0, 2, 5);
    assert [DigitChar(2), DigitChar(0), DigitChar(2), DigitChar(5)] == "2025";
  }
  /** The digits of 2025-06-15. */
  lemma ExampleDay(y: nat, m: nat, d: nat)
    requires y == 2025 && m == 6 && d == 15
    ensures Fixed(y, 4) == "2025" && Fixed(m, 2) == "06" && Fixed(d, 2) == "15"
  {
    ExampleYear(y);
    assert Fixed(m, 2) == "06" by {
      TwoDigits(m);
      assert [DigitChar(0), DigitChar(6)] == "06";
    }
    assert Fixed(d, 2) == "15" by {
      TwoDigits(d);
      assert [DigitChar(1), DigitChar(5)] == "15";
    }
  }

  lemma ExampleDateInput(y: nat, m: nat, d: nat)
    requires y == 2025 && m == 6 && d == 15
    ensures DateInput(y, m, d) == "2025-06-15"
  {
    ExampleDay(y, m, d);
  }

  /** The stamp of a whole hour on 2025-06-15. */
  lemma ExampleStamp(t: DateTime, hh: string)
    requires t.year == 2025 && t.month == 6 && t.day == 15 && 0 <= t.hour < 24
    requires t.minute == 0 && t.second == 0 && t.millisecond == 0
    requires Fixed(t.hour, 2) == hh
    ensures StampOf(t) == "2025" + "06" + "15" + "T" + (hh + "00" + "00") + "Z"
  {
    ExampleDay(t.year, t.month, t.day);
    TwoDigits(t.minute);
  }

  lemma StampLiterals()
    ensures "2025" + "06" + "15" + "T" + ("09" + "00" + "00") + "Z" == "20250615T090000Z"
    ensures "2025" + "06" + "15" + "T" + ("10" + "00" + "00") + "Z" == "20250615T100000Z"
  {
  }

  lemma ExampleStartStamp(start: DateTime)
    requires start == DateTime(2025, 6, 15, 9, 0, 0, 0)
    ensures StampOf(start) == "20250615T090000Z"
  {
    TwoDigits(start.hour);
    ExampleStamp(start, "09");
    StampLiterals();
  }

  lemma ExampleEndStamp(end: DateTime)
    requires end == DateTime(2025, 6, 15, 10, 0, 0, 0)
    ensures StampOf(end) == "20250615T100000Z"
  {
    TwoDigits(end.hour);
    ExampleStamp(end, "10");
    StampLiterals();
  }

  /** The `text` and `dates` parameters of an event's link. */
  lemma EventTextDates(e: EventDetails)
    requires '&' !in e.dates && '=' !in e.dates
    ensures |Parameters(EventUrl(e))| == 6
    ensures Parameters(EventUrl(e))[1] == ("text", Encode(e.text))
    ensures Parameters(EventUrl(e))[2] == ("dates", e.dates)
  {
    TemplateParameters(e);
    SixAt(Parameters(EventUrl(e)), ("action", "TEMPLATE"), ("text", Encode(e.text)), ("dates", e.dates),
          ("details", Encode(e.details)), ("location", Encode(e.location)), ("add", Encode(e.add)));
  }

  lemma SixAt<T>(ps: seq<T>, a: T, b: T, c: T, d: T, e: T, f: T)
    requires ps == [a, b, c, d, e, f]
    ensures |ps| == 6 && ps[1] == b && ps[2] == c
  {
  }

  /** The `text` parameter of a booked link is the encoded title and its
      `dates` parameter is the meeting's two stamps. */
  lemma LinkValues(f: BookingForm, zone: int)
    requires BookingLink(f, zone).Success?
    ensures ParseLocal(LocalStart(f)).Some?
    ensures |Parameters(BookingLink(f, zone).value)| == 6
    ensures Parameters(BookingLink(f, zone).value)[1] == ("text", Encode(f.meetingTitle))
    ensures Parameters(BookingLink(f, zone).value)[2]
         == ("dates", DatesValue(Window(ParseLocal(LocalStart(f)).value, zone)))
  {
    BookingLinkOf(f, zone);
    var local := ParseLocal(LocalStart(f)).value;
    DatesSafe(Window(local, zone));
    EventTextDates(EventOf(f, local, zone));
  }

  lemma ExampleDates()
    ensures "20250615T090000Z" + "/" + "20250615T100000Z" == "20250615T090000Z/20250615T100000Z"
  {
  }

  /** Jane Doe's request for "Project Discussion" at 09:00 on 2025-06-15,
      with any description. */
  predicate IsExampleForm(f: BookingForm) {
    && f.selectedDate == "2025-06-15" && f.selectedTime == "09:00"
    && f.meetingTitle == "Project Discussion"
    && f.clientName == "Jane Doe" && f.clientEmail == "jane@example.com"
  }

  lemma ExampleDatesValue(start: DateTime, end: DateTime)
    requires start == DateTime(2025, 6, 15, 9, 0, 0, 0) && end == DateTime(2025, 6, 15, 10, 0, 0, 0)
    ensures StampOf(start) + "/" + StampOf(end) == "20250615T090000Z/20250615T100000Z"
  {
    ExampleStartStamp(start);
    ExampleEndStamp(end);
    ExampleDates();
  }

  lemma ExampleDatesParameter(f: BookingForm)
    requires IsExampleForm(f)
    ensures BookingLink(f, 0).Success?
    ensures |Parameters(BookingLink(f, 0).value)| == 6
    ensures Parameters(BookingLink(f, 0).value)[2] == ("dates", "20250615T090000Z/20250615T100000Z")
  {
    var start, end := DateTime(2025, 6, 15, 9, 0, 0, 0), DateTime(2025, 6, 15, 10, 0, 0, 0);
    ExampleDateInput(start.year, start.month, start.day);
    SlotLink(f, start.year, start.month, start.day, 0, start, end);
    ExampleDatesValue(start, end);
  }

  lemma ExampleTextParameter(f: BookingForm)
    requires IsExampleForm(f) && BookingLink(f, 0).Success?
    ensures |Parameters(BookingLink(f, 0).value)| == 6
    ensures Parameters(BookingLink(f, 0).value)[1] == ("text", "Project%20Discussion")
  {
    LinkValues(f, 0);
    TitleEncoding(f.meetingTitle);
  }

  /** Jane Doe books "Project Discussion" for 09:00 on 2025-06-15 with the
      host on UTC: the link carries `text=Project%20Discussion` and
      `dates=20250615T090000Z/20250615T100000Z`. */
  lemma ExampleBooking(f: BookingForm)
    requires IsExampleForm(f)
    ensures BookingLink(f, 0).Success?
    ensures |Parameters(BookingLink(f, 0).value)| == 6
    ensures Parameters(BookingLink(f, 0).value)[1] == ("text", "Project%20Discussion")
    ensures Parameters(BookingLink(f, 0).value)[2] == ("dates", "20250615T090000Z/20250615T100000Z")
  {
    ExampleDatesParameter(f);
    ExampleTextParameter(f);
  }

}

=== FILE: calendar.dfy ===
/** Calendar arithmetic of JavaScript's `Date`: the proleptic Gregorian
    calendar, and time values counted in milliseconds from
    1970-01-01T00:00:00Z without leap seconds. Years use astronomical
    numbering (year 0 is 1 BC), as `Date` does. */
module Calendar {
  import opened Arithmetic

  const MsPerSecond := 1000
  const MsPerMinute := 60000
  const MsPerHour := 3600000
  const MsPerDay := 86400000

  /** A broken-down date and time of day. */
  datatype DateTime = DateTime(year: int, month: int, day: int,
                               hour: int, minute: int, second: int, millisecond: int)

  predicate IsLeapYear(y: int) {
    y % 4 == 0 && (y % 100 != 0 || y % 400 == 0)
  }

  function YearLength(y: int): int {
    if IsLeapYear(y) then 366 else 365
  }

  function DaysInMonth(y: int, m: int): (n: int)
    requires 1 <= m <= 12
    ensures 28 <= n <= 31
  {
    if m == 2 then (if IsLeapYear(y) then 29 else 28)
    else if m == 4 || m == 6 || m == 9 || m == 11 then 30
    else 31
  }

  predicate ValidDate(y: int, m: int, d: int) {
    1 <= m <= 12 && 1 <= d <= DaysInMonth(y, m)
  }

  predicate ValidDateTime(t: DateTime) {
    && ValidDate(t.year, t.month, t.day)
    && 0 <= t.hour < 24 && 0 <= t.minute < 60 && 0 <= t.second < 60
    && 0 <= t.millisecond < 1000
  }

  /** Days in the months of year `y` before month `m` (`m == 13` gives the whole year). */
  function DaysBeforeMonth(y: int, m: int): int
    requires 1 <= m <= 13
  {
    [0, 31, 59, 90, 120, 151, 181, 212, 243, 273, 304, 334, 365][m - 1]
      + (if m > 2 && IsLeapYear(y) then 1 else 0)
  }

  /** Days from 0000-01-01 to the first day of year `y` (negative before year 0). */
  function DaysBeforeYear(y: int): int
    decreases if y < 0 then -y else y
  {
    if y == 0 then 0
    else if y > 0 then DaysBeforeYear(y - 1) + YearLength(y - 1)
    else DaysBeforeYear(y + 1) - YearLength(y)
  }

  /** The day number of a date: days since 0000-01-01. */
  function DayNumber(y: int, m: int, d: int): int
    requires 1 <= m <= 12
  {
    DaysBeforeYear(y) + DaysBeforeMonth(y, m) + d - 1
  }

  /** The day number of 1970-01-01, the origin of time values. */
  function EpochDay(): int {
    DayNumber(1970, 1, 1)
  }

  lemma MonthStep(y: int, m: int)
    requires 1 <= m <= 12
    ensures DaysBeforeMonth(y, m + 1) == DaysBeforeMonth(y, m) + DaysInMonth(y, m)
  {
  }

  lemma YearStep(y: int)
    ensures DaysBeforeYear(y + 1) == DaysBeforeYear(y) + YearLength(y)
  {
  }

  /** Day numbers of year starts grow with the year. */
  lemma {:induction false} YearsIncrease(a: int, b: int)
    requires a <= b
    ensures DaysBeforeYear(a) <= DaysBeforeYear(b)
    decreases b - a
  {
    if a < b {
      YearStep(a);
      YearsIncrease(a + 1, b);
    }
  }

  /** The year containing day number `n`, searched upwards from year `y`. */
  function YearUp(n: int, y: int): (r: int)
    requires y >= 0 && DaysBeforeYear(y) <= n
    ensures r >= y && DaysBeforeYear(r) <= n < DaysBeforeYear(r + 1)
    decreases n - DaysBeforeYear(y)
  {
    YearStep(y);
    if n < DaysBeforeYear(y + 1) then y else YearUp(n, y + 1)
  }

  /** The year containing day number `n`, searched downwards from year `y`. */
  function YearDown(n: int, y: int): (r: int)
    requires y < 0 && n < DaysBeforeYear(y + 1)
    ensures r <= y && DaysBeforeYear(r) <= n < DaysBeforeYear(r + 1)
    decreases DaysBeforeYear(y + 1) - n
  {
    YearStep(y);
    if DaysBeforeYear(y) <= n then y else YearDown(n, y - 1)
  }

  function YearOf(n: int): (y: int)
    ensures DaysBeforeYear(y) <= n < DaysBeforeYear(y + 1)
  {
    if n >= 0 then YearUp(n, 0) else YearDown(n, -1)
  }

  /** The month containing day `k` of year `y`, searched from month `m`. */
  function MonthFrom(y: int, k: int, m: int): (r: int)
    requires 1 <= m <= 12 && DaysBeforeMonth(y, m) <= k < YearLength(y)
    ensures m <= r <= 12 && DaysBeforeMonth(y, r) <= k < DaysBeforeMonth(y, r + 1)
    decreases 12 - m
  {
    if k < DaysBeforeMonth(y, m + 1) then m else MonthFrom(y, k, m + 1)
  }

  /** The date of a day number: a valid date whose day number is `n`. */
  function DateOfDay(n: int): (r: (int, int, int))
    ensures ValidDate(r.0, r.1, r.2)
    ensures DayNumber(r.0, r.1, r.2) == n
  {
    var y := YearOf(n);
    var k := n - DaysBeforeYear(y);
    YearStep(y);
    var m := MonthFrom(y, k, 1);
    MonthStep(y, m);
    (y, m, k - DaysBeforeMonth(y, m) + 1)
  }

  /** Distinct valid dates have distinct day numbers. */
  lemma DayNumberInjective(y1: int, m1: int, d1: int, y2: int, m2: int, d2: int)
    requires ValidDate(y1, m1, d1) && ValidDate(y2, m2, d2)
    requires DayNumber(y1, m1, d1) == DayNumber(y2, m2, d2)
    ensures y1 == y2 && m1 == m2 && d1 == d2
  {
    YearStep(y1);
    YearStep(y2);
    MonthStep(y1, m1);
    MonthStep(y2, m2);
    if y1 < y2 {
      YearsIncrease(y1 + 1, y2);
      assert false;
    } else if y2 < y1 {
      YearsIncrease(y2 + 1, y1);
      assert false;
    }
  }

  /** Reading a valid date back from its day number gives the date. */
  lemma DateOfDayNumber(y: int, m: int, d: int)
    requires ValidDate(y, m, d)
    ensures DateOfDay(DayNumber(y, m, d)) == (y, m, d)
  {
    var r := DateOfDay(DayNumber(y, m, d));
    DayNumberInjective(r.0, r.1, r.2, y, m, d);
  }

  /** The time value of a broken-down UTC date and time: JavaScript's `Date.UTC`
      (MakeDay and MakeTime of ECMA-262). Out-of-range hours and minutes carry
      over linearly, as they do there. */
  function ToInstant(t: DateTime): int
    requires 1 <= t.month <= 12
  {
    (DayNumber(t.year, t.month, t.day) - EpochDay()) * MsPerDay
      + t.hour * MsPerHour + t.minute * MsPerMinute + t.second * MsPerSecond + t.millisecond
  }

  /** The UTC fields of a time value (the getUTC... accessors of `Date`).
      Dafny's `/` and `%` floor for a positive divisor, as ECMA-262's Day and
      TimeWithinDay do for time values before 1970. */
  function FromInstant(v: int): (t: DateTime)
    ensures ValidDateTime(t)
  {
    var date := DateOfDay(v / MsPerDay + EpochDay());
    var ms := v % MsPerDay;
    var withinHour := ms % MsPerHour;
    var withinMinute := withinHour % MsPerMinute;
    DateTime(date.0, date.1, date.2,
             ms / MsPerHour, withinHour / MsPerMinute, withinMinute / MsPerSecond,
             withinMinute % MsPerSecond)
  }

  /** The time of day in milliseconds is recovered from its fields. */
  lemma TimeOfDayFields(ms: int)
    requires 0 <= ms < MsPerDay
    ensures ms == ms / MsPerHour * MsPerHour + ms % MsPerHour / MsPerMinute * MsPerMinute
                  + ms % MsPerHour % MsPerMinute / MsPerSecond * MsPerSecond
                  + ms % MsPerHour % MsPerMinute % MsPerSecond
  {
  }

  /** Breaking a time value into fields and reassembling it is the identity. */
  lemma InstantFields(v: int)
    ensures ToInstant(FromInstant(v)) == v
  {
    var t := FromInstant(v);
    assert DayNumber(t.year, t.month, t.day) - EpochDay() == v / MsPerDay;
    TimeOfDayFields(v % MsPerDay);
  }

  /** The millisecond field is the time value's remainder modulo a second. */
  lemma MillisecondOf(v: int)
    ensures FromInstant(v).millisecond == v % MsPerSecond
  {
    var t := FromInstant(v);
    InstantFields(v);
    var k := (DayNumber(t.year, t.month, t.day) - EpochDay()) * 86400
             + t.hour * 3600 + t.minute * 60 + t.second;
    assert v == k * MsPerSecond + t.millisecond;
    DivModUnique(v, MsPerSecond, k, t.millisecond);
  }

  /** Reassembling valid fields and breaking them up again is the identity. */
  lemma FieldsInstant(t: DateTime)
    requires ValidDateTime(t)
    ensures FromInstant(ToInstant(t)) == t
  {
    var days := DayNumber(t.year, t.month, t.day) - EpochDay();
    var withinMinute := t.second * MsPerSecond + t.millisecond;
    var withinHour := t.minute * MsPerMinute + withinMinute;
    var ms := t.hour * MsPerHour + withinHour;
    DivModUnique(ToInstant(t), MsPerDay, days, ms);
    DivModUnique(ms, MsPerHour, t.hour, withinHour);
    DivModUnique(withinHour, MsPerMinute, t.minute, withinMinute);
    DivModUnique(withinMinute, MsPerSecond, t.second, t.millisecond);
    DateOfDayNumber(t.year, t.month, t.day);
  }

  /** Adding one hour to a valid date-time before 23:00 lands on the same day,
      one hour later, with minutes, seconds and milliseconds unchanged. */
  lemma AddHour(t: DateTime)
    requires ValidDateTime(t) && t.hour < 23
    ensures FromInstant(ToInstant(t) + MsPerHour) == t.(hour := t.hour + 1)
  {
    FieldsInstant(t.(hour := t.hour + 1));
  }

  /** Fields with no milliseconds denote a whole second. */
  lemma WholeSecond(t: DateTime)
    requires 1 <= t.month <= 12 && t.millisecond == 0
    ensures ToInstant(t) % MsPerSecond == 0
  {
    var k := (DayNumber(t.year, t.month, t.day) - EpochDay()) * 86400
             + t.hour * 3600 + t.minute * 60 + t.second;
    DivModUnique(ToInstant(t), MsPerSecond, k, 0);
  }
}

=== FILE: decimal.dfy ===
/** Fixed-width decimal rendering and reading of non-negative integers. */
module Decimal {
  import opened Arithmetic

  predicate IsDigit(c: char) {
    '0' <= c <= '9'
  }

  predicate AllDigits(s: string) {
    forall i :: 0 <= i < |s| ==> IsDigit(s[i])
  }

  function DigitValue(c: char): (d: int)
    requires IsDigit(c)
    ensures 0 <= d < 10
  {
    c as int - '0' as int
  }

  function DigitChar(d: int): (c: char)
    requires 0 <= d < 10
    ensures IsDigit(c) && DigitValue(c) == d
  {
    ('0' as int + d) as char
  }

  function Pow10(w: nat): (p: nat)
    ensures p >= 1
  {
    if w == 0 then 1 else 10 * Pow10(w - 1)
  }

  /** The value of a string of decimal digits, most significant first. */
  function Value(s: string): (v: nat)
    requires AllDigits(s)
    ensures v < Pow10(|s|)
  {
    if |s| == 0 then 0 else 10 * Value(s[..|s| - 1]) + DigitValue(s[|s| - 1])
  }

  /** The last `w` decimal digits of `n`, zero-padded on the left: JavaScript's
      `String(n).padStart(w, "0")` for every `n` that fits in `w` digits. */
  function Fixed(n: nat, w: nat): (s: string)
    ensures |s| == w
    ensures AllDigits(s)
    ensures n < Pow10(w) ==> Value(s) == n
  {
    if w == 0 then [] else
      var s := Fixed(n / 10, w - 1) + [DigitChar(n % 10)];
      assert s[..|s| - 1] == Fixed(n / 10, w - 1);
      s
  }

  /** Rendering the value of a digit string at its own width gives the string back. */
  lemma {:induction false} FixedValue(s: string)
    requires AllDigits(s)
    ensures Fixed(Value(s), |s|) == s
  {
    if |s| > 0 {
      var init := s[..|s| - 1];
      var last := s[|s| - 1];
      assert AllDigits(init);
      FixedValue(init);
      assert Value(s) == 10 * Value(init) + DigitValue(last);
      DivModUnique(Value(s), 10, Value(init), DigitValue(last));
      assert DigitChar(DigitValue(last)) == last;
      assert Fixed(Value(s), |s|) == Fixed(Value(init), |init|) + [DigitChar(DigitValue(last))];
      assert s == init + [last];
    }
  }
}

=== FILE: iso.dfy ===
/** The date-time strings of the booking handler: JavaScript's
    `Date.prototype.toISOString`, the compact `YYYYMMDDTHHMMSSZ` stamp the
    handler derives from it, and the `YYYY-MM-DDTHH:mm:ss` string it hands to
    the `Date` constructor. */
module IsoFormat {
  import opened Results
  import opened Decimal
  import opened Text
  import opened Calendar

  /** The year as `toISOString` writes it: four digits for years 0 to 9999,
      otherwise a sign and six digits. */
  function IsoYear(y: int): (r: string)
    ensures |r| == if 0 <= y <= 9999 then 4 else 7
  {
    if 0 <= y <= 9999 then Fixed(y, 4)
    else if y < 0 then "-" + Fixed(-y, 6)
    else "+" + Fixed(y, 6)
  }

  /** `YYYY-MM-DD` */
  function IsoDate(t: DateTime): string
    requires ValidDateTime(t)
  {
    IsoYear(t.year) + "-" + Fixed(t.month, 2) + "-" + Fixed(t.day, 2)
  }

  /** `HH:mm:ss` */
  function IsoTime(t: DateTime): string
    requires ValidDateTime(t)
  {
    Fixed(t.hour, 2) + ":" + Fixed(t.minute, 2) + ":" + Fixed(t.second, 2)
  }

  /** The ISO text of UTC fields: `YYYY-MM-DDTHH:mm:ss.sssZ`. */
  function IsoOf(t: DateTime): string
    requires ValidDateTime(t)
  {
    IsoDate(t) + "T" + IsoTime(t) + ("." + Fixed(t.millisecond, 3) + "Z")
  }

  /** `toISOString()` of a time value: its UTC fields, zero-padded, at fixed
      places after the year. */
  function IsoString(v: int): (r: string)
    ensures var t, n := FromInstant(v), |IsoYear(FromInstant(v).year)|;
      && |r| == n + 20 && r[..n] == IsoYear(t.year)
      && r[n] == '-' && r[n + 1..n + 3] == Fixed(t.month, 2)
      && r[n + 3] == '-' && r[n + 4..n + 6] == Fixed(t.day, 2)
      && r[n + 6] == 'T' && r[n + 7..n + 9] == Fixed(t.hour, 2)
      && r[n + 9] == ':' && r[n + 10..n + 12] == Fixed(t.minute, 2)
      && r[n + 12] == ':' && r[n + 13..n + 15] == Fixed(t.second, 2)
      && r[n + 15] == '.' && r[n + 16..n + 19] == Fixed(t.millisecond, 3)
      && r[n + 19] == 'Z'
  {
    var t := FromInstant(v);
    IsoSlices(IsoYear(t.year), Fixed(t.month, 2), Fixed(t.day, 2),
              Fixed(t.hour, 2), Fixed(t.minute, 2), Fixed(t.second, 2), Fixed(t.millisecond, 3));
    IsoOf(t)
  }

  /** Where the pieces of an ISO text sit, whatever they hold. */
  lemma IsoSlices(y: string, mo: string, d: string, h: string, mi: string, sec: string, ms: string)
    requires |mo| == 2 && |d| == 2 && |h| == 2 && |mi| == 2 && |sec| == 2 && |ms| == 3
    ensures var s, n := y + "-" + mo + "-" + d + "T" + (h + ":" + mi + ":" + sec) + ("." + ms + "Z"), |y|;
      && |s| == n + 20 && s[..n] == y
      && s[n] == '-' && s[n + 1..n + 3] == mo && s[n + 3] == '-' && s[n + 4..n + 6] == d
      && s[n + 6] == 'T' && s[n + 7..n + 9] == h && s[n + 9] == ':' && s[n + 10..n + 12] == mi
      && s[n + 12] == ':' && s[n + 13..n + 15] == sec
      && s[n + 15] == '.' && s[n + 16..n + 19] == ms && s[n + 19] == 'Z'
  {
    var n := |y|;
    var date := y + "-" + mo + "-" + d;
    var time := h + ":" + mi + ":" + sec;
    var tail := "." + ms + "Z";
    var s := date + "T" + time + tail;
    assert s == date + ("T" + time + tail);
    assert s[..n + 6] == date;
    assert date[..n] == y && date[n + 1..n + 3] == mo && date[n + 4..n + 6] == d;
    assert s[n + 7..n + 15] == time;
    assert time[..2] == h && time[3..5] == mi && time[6..8] == sec;
    assert s[n + 15..] == tail;
    assert tail[1..4] == ms;
  }

  /** The string work of the handler's `formatDateTime`: every `-` and `:`
      deleted, the text cut at the first `.`, and a `Z` appended again. */
  function Compact(iso: string): (r: string)
    ensures |r| >= 1 && r[|r| - 1] == 'Z'
    ensures forall i :: 0 <= i < |r| - 1 ==> r[i] != '-' && r[i] != ':' && r[i] != '.'
    ensures '.' !in Remove(iso, {'-', ':'}) ==> r == Remove(iso, {'-', ':'}) + "Z"
  {
    var kept := Remove(iso, {'-', ':'});
    var head := Split(kept, '.')[0];
    SplitFront(kept, '.');
    assert forall i :: 0 <= i < |head| ==> head[i] == kept[i];
    head + "Z"
  }

  /** `formatDateTime` of a time value: the stamp of its UTC fields. */
  function CompactStamp(v: int): (r: string)
    ensures r == StampOf(FromInstant(v))
  {
    CompactIsFields(FromInstant(v));
    Compact(IsoString(v))
  }

  /** The year as it appears in a compact stamp: the ISO year with its minus
      sign (if any) deleted. */
  function StampYear(y: int): string {
    if 0 <= y <= 9999 then Fixed(y, 4)
    else if y < 0 then Fixed(-y, 6)
    else "+" + Fixed(y, 6)
  }

  /** The compact stamp written directly from UTC fields. */
  function StampOf(t: DateTime): string
    requires ValidDateTime(t)
  {
    StampHead(t) + "Z"
  }

  /** The stamp without its closing `Z`. */
  function StampHead(t: DateTime): string
    requires ValidDateTime(t)
  {
    StampYear(t.year) + Fixed(t.month, 2) + Fixed(t.day, 2) + "T"
      + (Fixed(t.hour, 2) + Fixed(t.minute, 2) + Fixed(t.second, 2))
  }

  /** The characters a stamp is made of. */
  predicate IsStampChar(c: char) {
    IsDigit(c) || c == 'T' || c == 'Z' || c == '+'
  }

  /** A stamp's characters come from its year; the rest is digits, `T` and `Z`. */
  lemma StampPieces(y: string, mo: string, d: string, hms: string)
    requires forall k :: 0 <= k < |y| ==> IsStampChar(y[k])
    requires AllDigits(mo) && AllDigits(d) && AllDigits(hms)
    ensures var s := y + mo + d + "T" + hms + "Z";
      && (forall k :: 0 <= k < |s| ==> IsStampChar(s[k]))
      && ('+' in s ==> '+' in y)
  {
    var s := y + mo + d + "T" + hms + "Z";
    forall k | 0 <= k < |s|
      ensures IsStampChar(s[k]) && (s[k] == '+' ==> k < |y|)
    {
      if k < |y| {
      } else if k < |y| + |mo| {
        assert s[k] == mo[k - |y|];
      } else if k < |y| + |mo| + |d| {
        assert s[k] == d[k - |y| - |mo|];
      } else if k == |y| + |mo| + |d| {
      } else if k < |s| - 1 {
        assert s[k] == hms[k - |y| - |mo| - |d| - 1];
      }
    }
  }

  lemma StampChars(t: DateTime)
    requires ValidDateTime(t)
    ensures forall k :: 0 <= k < |StampOf(t)| ==> IsStampChar(StampOf(t)[k])
    ensures '+' in StampOf(t) ==> t.year > 9999
  {
    var y := StampYear(t.year);
    var hms := Fixed(t.hour, 2) + Fixed(t.minute, 2) + Fixed(t.second, 2);
    assert AllDigits(hms);
    assert forall k :: 0 <= k < |y| ==> IsStampChar(y[k]);
    assert t.year <= 9999 ==> '+' !in y by {
      if t.year <= 9999 {
        assert AllDigits(y);
      }
    }
    StampPieces(y, Fixed(t.month, 2), Fixed(t.day, 2), hms);
  }

  /** The shape `DDDDDDDDTDDDDDDZ`. */
  predicate IsStampShape(s: string) {
    && |s| == 16 && s[8] == 'T' && s[15] == 'Z'
    && forall i :: 0 <= i < 16 && i != 8 && i != 15 ==> IsDigit(s[i])
  }

  /** Reads the UTC fields back from a stamp of shape `DDDDDDDDTDDDDDDZ`. */
  function ParseStamp(s: string): Option<DateTime> {
    if IsStampShape(s) then
      Some(DateTime(Value(s[..4]), Value(s[4..6]), Value(s[6..8]),
                    Value(s[9..11]), Value(s[11..13]), Value(s[13..15]), 0))
    else None
  }

  lemma RemoveDigits(s: string)
    requires AllDigits(s)
    ensures Remove(s, {'-', ':'}) == s
  {
    RemoveAbsent(s, {'-', ':'});
  }

  /** `a + sep + b` loses its separator and keeps digit strings `a` and `b`. */
  lemma RemoveAround(a: string, sep: string, b: string)
    requires sep == "-" || sep == ":"
    ensures Remove(a + sep + b, {'-', ':'}) == Remove(a, {'-', ':'}) + Remove(b, {'-', ':'})
  {
    RemoveAppend(a + sep, b, {'-', ':'});
    RemoveAppend(a, sep, {'-', ':'});
  }

  /** Deleting the separators of the ISO year keeps its digits and plus sign. */
  lemma RemoveYear(year: int)
    ensures Remove(IsoYear(year), {'-', ':'}) == StampYear(year)
  {
    var drop: set<char> := {'-', ':'};
    if 0 <= year <= 9999 {
      RemoveDigits(IsoYear(year));
    } else if year < 0 {
      RemoveAppend("-", Fixed(-year, 6), drop);
      RemoveDigits(Fixed(-year, 6));
    } else {
      RemoveAppend("+", Fixed(year, 6), drop);
      RemoveDigits(Fixed(year, 6));
      RemoveAbsent("+", drop);
    }
  }

  lemma RemoveDatePart(y: string, mo: string, d: string)
    requires AllDigits(mo) && AllDigits(d)
    ensures Remove(y + "-" + mo + "-" + d, {'-', ':'}) == Remove(y, {'-', ':'}) + mo + d
  {
    RemoveAround(y + "-" + mo, "-", d);
    RemoveAround(y, "-", mo);
    RemoveDigits(mo);
    RemoveDigits(d);
  }

  lemma RemoveTimePart(h: string, mi: string, s: string)
    requires AllDigits(h) && AllDigits(mi) && AllDigits(s)
    ensures Remove(h + ":" + mi + ":" + s, {'-', ':'}) == h + mi + s
  {
    RemoveAround(h + ":" + mi, ":", s);
    RemoveAround(h, ":", mi);
    RemoveDigits(h);
    RemoveDigits(mi);
    RemoveDigits(s);
  }

  lemma RemoveFraction(ms: string)
    requires AllDigits(ms)
    ensures Remove("." + ms + "Z", {'-', ':'}) == "." + ms + "Z"
  {
    var tail := "." + ms + "Z";
    assert forall k :: 0 <= k < |tail| ==> tail[k] == '.' || tail[k] == 'Z' || IsDigit(tail[k]);
    RemoveAbsent(tail, {'-', ':'});
  }

  /** Deleting the separators of the ISO text of `t` leaves its fields in place. */
  lemma RemoveIso(t: DateTime)
    requires ValidDateTime(t)
    ensures Remove(IsoOf(t), {'-', ':'})
         == StampYear(t.year) + Fixed(t.month, 2) + Fixed(t.day, 2) + "T"
            + (Fixed(t.hour, 2) + Fixed(t.minute, 2) + Fixed(t.second, 2))
            + ("." + Fixed(t.millisecond, 3) + "Z")
  {
    var drop: set<char> := {'-', ':'};
    var tail := "." + Fixed(t.millisecond, 3) + "Z";
    RemoveAppend(IsoDate(t) + "T" + IsoTime(t), tail, drop);
    RemoveAppend(IsoDate(t) + "T", IsoTime(t), drop);
    RemoveAppend(IsoDate(t), "T", drop);
    RemoveAbsent("T", drop);
    RemoveDatePart(IsoYear(t.year), Fixed(t.month, 2), Fixed(t.day, 2));
    RemoveYear(t.year);
    RemoveTimePart(Fixed(t.hour, 2), Fixed(t.minute, 2), Fixed(t.second, 2));
    RemoveFraction(Fixed(t.millisecond, 3));
  }

  /** Deleting `-` and `:` from the ISO text and cutting at `.` leaves the
      compact stamp of the fields: `formatDateTime` drops exactly the
      separators, the fractional seconds, and the minus sign of a negative year. */
  lemma CompactIsFields(t: DateTime)
    requires ValidDateTime(t)
    ensures Compact(IsoOf(t)) == StampOf(t)
  {
    var head, tail := StampHead(t), Fixed(t.millisecond, 3) + "Z";
    RemoveIso(t);
    assert Remove(IsoOf(t), {'-', ':'}) == head + ['.'] + tail;
    HeadFree(t);
    SplitHead(head, tail, '.');
  }

  /** The stamp before its `Z` has no `.` in it. */
  lemma HeadFree(t: DateTime)
    requires ValidDateTime(t)
    ensures '.' !in StampHead(t)
  {
    StampChars(t);
    var head := StampHead(t);
    assert forall k :: 0 <= k < |head| ==> head[k] == StampOf(t)[k];
  }

  /** Where the pieces of a stamp sit, whatever they hold. */
  lemma StampSlices(y: string, mo: string, d: string, h: string, mi: string, sec: string)
    requires |y| == 4 && |mo| == 2 && |d| == 2 && |h| == 2 && |mi| == 2 && |sec| == 2
    ensures var s := y + mo + d + "T" + (h + mi + sec) + "Z";
      && |s| == 16 && s[8] == 'T' && s[15] == 'Z'
      && s[..4] == y && s[4..6] == mo && s[6..8] == d
      && s[9..11] == h && s[11..13] == mi && s[13..15] == sec
  {
    var date := y + mo + d;
    var time := h + mi + sec;
    var s := date + "T" + time + "Z";
    assert s == date + ("T" + time + "Z");
    assert s[..8] == date;
    assert date[..4] == y && date[4..6] == mo && date[6..8] == d;
    assert s[9..15] == time;
    assert time[..2] == h && time[2..4] == mi && time[4..6] == sec;
  }

  /** The stamp of fields with a year from 0 to 9999 has the shape
      `DDDDDDDDTDDDDDDZ` and reads back as those fields, milliseconds aside. */
  lemma StampOfShape(t: DateTime)
    requires ValidDateTime(t) && 0 <= t.year <= 9999
    ensures IsStampShape(StampOf(t))
    ensures ParseStamp(StampOf(t)) == Some(t.(millisecond := 0))
  {
    var s := StampOf(t);
    var y, mo, d := Fixed(t.year, 4), Fixed(t.month, 2), Fixed(t.day, 2);
    var h, mi, sec := Fixed(t.hour, 2), Fixed(t.minute, 2), Fixed(t.second, 2);
    StampSlices(y, mo, d, h, mi, sec);
    assert s == y + mo + d + "T" + (h + mi + sec) + "Z";
    forall i | 0 <= i < 16 && i != 8 && i != 15
      ensures IsDigit(s[i])
    {
      if i < 4 { assert s[i] == s[..4][i]; }
      else if i < 6 { assert s[i] == s[4..6][i - 4]; }
      else if i < 8 { assert s[i] == s[6..8][i - 6]; }
      else if i < 11 { assert s[i] == s[9..11][i - 9]; }
      else if i < 13 { assert s[i] == s[11..13][i - 11]; }
      else { assert s[i] == s[13..15][i - 13]; }
    }
  }

  /** For years 0 to 9999 the stamp of an instant has the 16-character shape
      `DDDDDDDDTDDDDDDZ` and reads back as the UTC fields of the instant to
      the second: year, month, day, hour, minute and second, zero-padded. */
  lemma StampShape(v: int)
    requires 0 <= FromInstant(v).year <= 9999
    ensures IsStampShape(CompactStamp(v))
    ensures ParseStamp(CompactStamp(v)) == Some(FromInstant(v).(millisecond := 0))
  {
    StampOfShape(FromInstant(v));
  }

  /** A stamp of a year between 0 and 9999 pins the instant down to the
      second: the fractional part is all that `formatDateTime` loses. */
  lemma StampDeterminesSecond(v: int)
    requires 0 <= FromInstant(v).year <= 9999
    ensures ParseStamp(CompactStamp(v)).Some?
    ensures 1 <= ParseStamp(CompactStamp(v)).value.month <= 12
    ensures ToInstant(ParseStamp(CompactStamp(v)).value) == v - v % MsPerSecond
  {
    StampShape(v);
    InstantFields(v);
    MillisecondOf(v);
  }

  /** No stamp contains `-`, `:` or `.`, whatever the year. */
  lemma StampSeparatorFree(v: int)
    ensures '-' !in CompactStamp(v) && ':' !in CompactStamp(v) && '.' !in CompactStamp(v)
  {
  }

  /** No stamp contains `&`, `=`, `%` or `/`: it needs no percent-encoding in
      a query string, and a `/` placed between two stamps separates them. */
  lemma StampSafe(v: int)
    ensures '&' !in CompactStamp(v) && '=' !in CompactStamp(v) && '%' !in CompactStamp(v)
    ensures '/' !in CompactStamp(v)
  {
    var st := CompactStamp(v);
    assert forall c :: c in st ==> IsStampChar(c) by {
      StampChars(FromInstant(v));
    }
  }

  /** Fields `new Date` accepts from a `YYYY-MM-DDTHH:mm:ss` string: a real
      calendar date, minutes and seconds below 60, hours below 24 or the
      end-of-day `24:00:00`. */
  predicate AcceptedLocal(t: DateTime) {
    && 0 <= t.year <= 9999 && ValidDate(t.year, t.month, t.day) && t.millisecond == 0
    && 0 <= t.minute < 60 && 0 <= t.second < 60
    && (0 <= t.hour < 24 || (t.hour == 24 && t.minute == 0 && t.second == 0))
  }

  /** The layout `DDDD-DD-DDTDD:DD:DD`. */
  predicate IsLocalLayout(s: string) {
    && |s| == 19 && s[4] == '-' && s[7] == '-' && s[10] == 'T' && s[13] == ':' && s[16] == ':'
    && AllDigits(s[..4]) && AllDigits(s[5..7]) && AllDigits(s[8..10])
    && AllDigits(s[11..13]) && AllDigits(s[14..16]) && AllDigits(s[17..19])
  }

  /** What `new Date(s)` reads from the string the handler builds: the fields
      of a `YYYY-MM-DDTHH:mm:ss` string (ECMA-262's date-time string format
      without an offset, so a local time), or None for an invalid date, on
      which `toISOString` throws. */
  function ParseLocal(s: string): (r: Option<DateTime>)
    ensures r.Some? ==> AcceptedLocal(r.value)
  {
    if !IsLocalLayout(s) then None
    else
      var t := DateTime(Value(s[..4]), Value(s[5..7]), Value(s[8..10]),
                        Value(s[11..13]), Value(s[14..16]), Value(s[17..19]), 0);
      if AcceptedLocal(t) then Some(t) else None
  }

  /** The `YYYY-MM-DDTHH:mm:ss` text of accepted fields. */
  function LocalText(t: DateTime): string
    requires AcceptedLocal(t)
  {
    Fixed(t.year, 4) + "-" + Fixed(t.month, 2) + "-" + Fixed(t.day, 2) + "T"
      + Fixed(t.hour, 2) + ":" + Fixed(t.minute, 2) + ":" + Fixed(t.second, 2)
  }

  /** Where the pieces of a `YYYY-MM-DDTHH:mm:ss` text sit, whatever they hold. */
  lemma LocalSlices(y: string, mo: string, d: string, h: string, mi: string, sec: string)
    requires |y| == 4 && |mo| == 2 && |d| == 2 && |h| == 2 && |mi| == 2 && |sec| == 2
    ensures var s := y + "-" + mo + "-" + d + "T" + h + ":" + mi + ":" + sec;
      && |s| == 19 && s[4] == '-' && s[7] == '-' && s[10] == 'T' && s[13] == ':' && s[16] == ':'
      && s[..4] == y && s[5..7] == mo && s[8..10] == d
      && s[11..13] == h && s[14..16] == mi && s[17..19] == sec
  {
    var date := y + "-" + mo + "-" + d;
    var time := h + ":" + mi + ":" + sec;
    var s := date + "T" + h + ":" + mi + ":" + sec;
    assert s == date + ("T" + time);
    assert s[..10] == date;
    assert date[..4] == y && date[5..7] == mo && date[8..10] == d;
    assert s[11..] == time;
    assert time[..2] == h && time[3..5] == mi && time[6..8] == sec;
  }

  /** The text of accepted fields has the layout, with each field's digits in
      its place. */
  lemma LocalTextLayout(t: DateTime)
    requires AcceptedLocal(t)
    ensures var s := LocalText(t);
      && IsLocalLayout(s)
      && s[..4] == Fixed(t.year, 4) && s[5..7] == Fixed(t.month, 2) && s[8..10] == Fixed(t.day, 2)
      && s[11..13] == Fixed(t.hour, 2) && s[14..16] == Fixed(t.minute, 2) && s[17..19] == Fixed(t.second, 2)
  {
    LocalSlices(Fixed(t.year, 4), Fixed(t.month, 2), Fixed(t.day, 2),
                Fixed(t.hour, 2), Fixed(t.minute, 2), Fixed(t.second, 2));
  }

  /** The digits in each place of the text read as the field. */
  lemma LocalTextValues(t: DateTime)
    requires AcceptedLocal(t)
    ensures var s := LocalText(t);
      && IsLocalLayout(s)
      && Value(s[..4]) == t.year && Value(s[5..7]) == t.month && Value(s[8..10]) == t.day
      && Value(s[11..13]) == t.hour && Value(s[14..16]) == t.minute && Value(s[17..19]) == t.second
  {
    LocalTextLayout(t);
    assert Pow10(2) == 100 && Pow10(4) == 10000;
    assert t.day < 100;
  }

  /** Every accepted date-time is read back from its text. */
  lemma ParseLocalText(t: DateTime)
    requires AcceptedLocal(t)
    ensures ParseLocal(LocalText(t)) == Some(t)
  {
    var s := LocalText(t);
    LocalTextValues(t);
    var u := DateTime(Value(s[..4]), Value(s[5..7]), Value(s[8..10]),
                      Value(s[11..13]), Value(s[14..16]), Value(s[17..19]), 0);
    assert u == t;
  }

  /** The reading is exact: a string that parses is the text of its fields,
      so no two strings read as the same date-time. */
  lemma LocalTextParse(s: string)
    requires ParseLocal(s).Some?
    ensures LocalText(ParseLocal(s).value) == s
  {
    var y, mo, d := s[..4], s[5..7], s[8..10];
    var h, mi, sec := s[11..13], s[14..16], s[17..19];
    FixedValue(y);
    FixedValue(mo);
    FixedValue(d);
    FixedValue(h);
    FixedValue(mi);
    FixedValue(sec);
    var r := LocalText(ParseLocal(s).value);
    assert r == y + "-" + mo + "-" + d + "T" + h + ":" + mi + ":" + sec;
    LocalSlices(y, mo, d, h, mi, sec);
    forall i | 0 <= i < 19
      ensures r[i] == s[i]
    {
      if i < 4 { assert r[i] == r[..4][i]; }
      else if 5 <= i < 7 { assert r[i] == r[5..7][i - 5]; }
      else if 8 <= i < 10 { assert r[i] == r[8..10][i - 8]; }
      else if 11 <= i < 13 { assert r[i] == r[11..13][i - 11]; }
      else if 14 <= i < 16 { assert r[i] == r[14..16][i - 14]; }
      else if 17 <= i < 19 { assert r[i] == r[17..19][i - 17]; }
    }
  }
}

=== FILE: results.dfy ===
/** Optional values and success/failure results shared by the other modules. */
module Results {

  /** A value that may be absent (JavaScript's `null` from a lookup, a parse that fails). */
  datatype Option<+T> = None | Some(value: T)

  /** The outcome of an operation that either yields a value or reports an error. */
  datatype Result<+R, +E> = Success(value: R) | Failure(error: E)
}

=== FILE: text.dfy ===
/** The string operations the booking handler relies on: searching for a
    character, JavaScript's `split` and `join` on a one-character separator,
    and deleting every occurrence of some characters (a global regex replace
    of a character class by the empty string). */
module Text {
  import opened Results

  /** JavaScript's `s.indexOf(c)`, with `None` for -1. */
  function IndexOf(s: string, c: char): (r: Option<nat>)
    ensures r.Some? ==> r.value < |s| && s[r.value] == c && c !in s[..r.value]
    ensures r.None? <==> c !in s
  {
    if |s| == 0 then None
    else if s[0] == c then Some(0)
    else match IndexOf(s[1..], c)
      case None => None
      case Some(i) =>
        assert s[..i + 1] == [s[0]] + s[1..][..i];
        Some(i + 1)
  }

  /** JavaScript's `s.split(sep)` for a one-character separator: the pieces
      between consecutive separators, always at least one. */
  function Split(s: string, sep: char): (parts: seq<string>)
    ensures |parts| >= 1
    ensures forall k :: 0 <= k < |parts| ==> sep !in parts[k]
    decreases |s|
  {
    match IndexOf(s, sep)
    case None => [s]
    case Some(i) => [s[..i]] + Split(s[i + 1..], sep)
  }

  /** JavaScript's `parts.join(sep)`. */
  function Join(parts: seq<string>, sep: char): string
  {
    if |parts| == 0 then []
    else if |parts| == 1 then parts[0]
    else parts[0] + [sep] + Join(parts[1..], sep)
  }

  /** Splits `s` at its first `sep`: the text before it and the text after it,
      or all of `s` and the empty string when there is none. This is how a
      query-string parser separates a parameter's key from its value. */
  function SplitFirst(s: string, sep: char): (kv: (string, string))
    ensures sep !in kv.0
    ensures sep in s ==> s == kv.0 + [sep] + kv.1
    ensures sep !in s ==> kv == (s, [])
  {
    match IndexOf(s, sep)
    case None => (s, [])
    case Some(i) =>
      assert s == s[..i] + [sep] + s[i + 1..];
      (s[..i], s[i + 1..])
  }

  /** `s.replace(/[...]/g, "")`: every character of `drop` deleted. */
  function Remove(s: string, drop: set<char>): (r: string)
    ensures forall k :: 0 <= k < |r| ==> r[k] !in drop
    ensures |r| <= |s|
  {
    if |s| == 0 then []
    else (if s[0] in drop then [] else [s[0]]) + Remove(s[1..], drop)
  }

  /** A character that is not the first occurrence of `c` does not move the
      first occurrence: search in `a + b` finds `c` in `a` if it is there and
      otherwise in `b`, shifted by `|a|`. */
  lemma {:induction false} IndexOfAppend(a: string, b: string, c: char)
    requires c !in a
    ensures IndexOf(a + b, c) == if c in b then Some(|a| + IndexOf(b, c).value) else None
  {
    if |a| == 0 {
      assert a + b == b;
    } else {
      assert (a + b)[1..] == a[1..] + b;
      IndexOfAppend(a[1..], b, c);
    }
  }

  /** The first piece of a split is a prefix of the text, and the whole text
      when the separator does not occur. */
  lemma SplitFront(s: string, sep: char)
    ensures |Split(s, sep)[0]| <= |s| && Split(s, sep)[0] == s[..|Split(s, sep)[0]|]
    ensures sep !in s ==> Split(s, sep) == [s]
  {
  }

  /** Two pieces joined by a separator neither contains split back apart. */
  lemma SplitPair(a: string, b: string, sep: char)
    requires sep !in a && sep !in b
    ensures Split(a + [sep] + b, sep) == [a, b]
  {
    SplitStep(a, b, sep);
    SplitFront(b, sep);
  }

  /** Splitting undoes joining, provided no part contains the separator. */
  lemma {:induction false} SplitJoin(parts: seq<string>, sep: char)
    requires |parts| >= 1
    requires forall k :: 0 <= k < |parts| ==> sep !in parts[k]
    ensures Split(Join(parts, sep), sep) == parts
  {
    if |parts| == 1 {
      assert Join(parts, sep) == parts[0];
    } else {
      var rest := Join(parts[1..], sep);
      assert Join(parts, sep) == parts[0] + [sep] + rest;
      SplitStep(parts[0], rest, sep);
      assert forall k :: 0 <= k < |parts| - 1 ==> parts[1..][k] == parts[k + 1];
      SplitJoin(parts[1..], sep);
      assert parts == [parts[0]] + parts[1..];
    }
  }

  /** Splitting at a first separator: the text before it, then the split of
      the text after it. */
  lemma SplitStep(a: string, b: string, sep: char)
    requires sep !in a
    ensures Split(a + [sep] + b, sep) == [a] + Split(b, sep)
  {
    var s := a + [sep] + b;
    assert IndexOf(s, sep) == Some(|a|) by {
      assert s == a + ([sep] + b);
      IndexOfAppend(a, [sep] + b, sep);
    }
    assert s[..|a|] == a && s[|a| + 1..] == b;
  }

  /** The first piece of a split is everything before the first separator. */
  lemma SplitHead(a: string, b: string, sep: char)
    requires sep !in a
    ensures Split(a + [sep] + b, sep)[0] == a
  {
    SplitStep(a, b, sep);
  }

  /** Deletion distributes over concatenation. */
  lemma {:induction false} RemoveAppend(a: string, b: string, drop: set<char>)
    ensures Remove(a + b, drop) == Remove(a, drop) + Remove(b, drop)
  {
    if |a| == 0 {
      assert a + b == b;
    } else {
      assert (a + b)[1..] == a[1..] + b;
      RemoveAppend(a[1..], b, drop);
    }
  }

  /** Deleting characters that do not occur changes nothing. */
  lemma {:induction false} RemoveAbsent(s: string, drop: set<char>)
    requires forall k :: 0 <= k < |s| ==> s[k] !in drop
    ensures Remove(s, drop) == s
  {
    if |s| > 0 {
      RemoveAbsent(s[1..], drop);
    }
  }

  /** Deleting characters keeps exactly the others; `RemoveAppend` and
      `RemoveAbsent` show that their order is kept too. */
  lemma {:induction false} RemoveKeeps(s: string, drop: set<char>)
    ensures forall c :: c in Remove(s, drop) <==> c in s && c !in drop
  {
    if |s| > 0 {
      RemoveKeeps(s[1..], drop);
      assert s == [s[0]] + s[1..];
    }
  }
}

=== FILE: theme.dfy ===
/** The page's theme preference (`ThemeProvider`): a dark/light flag that
    starts dark, is read from and written to the browser's key-value
    storage under the key `theme`, and is flipped by the toggle button. */
module Theme {
  import opened Results

  const ThemeKey := "theme"

  /** The browser's local storage: a key-value map, or unavailable (every
      access throws, and the provider's `catch` only logs a warning). */
  datatype Storage = Available(entries: map<string, string>) | Unavailable

  /** The provider's state: the mode, whether it has mounted, and the
      storage it reads and writes. */
  datatype Provider = Provider(isDark: bool, mounted: bool, storage: Storage)

  /** `getItem("theme")`: the stored string, or None when the key is absent
      or storage cannot be read. */
  function StoredTheme(s: Storage): (r: Option<string>)
    ensures s.Unavailable? ==> r.None?
    ensures s.Available? ==> (r.Some? <==> ThemeKey in s.entries)
    ensures r.Some? ==> s.Available? && r.value == s.entries[ThemeKey]
  {
    if s.Available? && ThemeKey in s.entries then Some(s.entries[ThemeKey]) else None
  }

  /** The string saved for a mode. */
  function ThemeName(isDark: bool): string {
    if isDark then "dark" else "light"
  }

  /** The mount effect's load: a stored non-empty string sets the mode to
      dark exactly when it is `"dark"`; an absent or empty value (falsy in
      JavaScript) or unreadable storage keeps the current mode. */
  function LoadTheme(isDark: bool, s: Storage): (r: bool)
    ensures r != isDark ==> StoredTheme(s).Some? && StoredTheme(s).value != ""
    ensures StoredTheme(s) == Some("dark") ==> r
    ensures StoredTheme(s).Some? && StoredTheme(s).value !in {"", "dark"} ==> !r
  {
    match StoredTheme(s)
    case Some(saved) => if saved != "" then saved == "dark" else isDark
    case None => isDark
  }

  /** The save effect's `setItem("theme", …)`: the mode's name under the
      theme key, every other entry untouched; unavailable storage stays so. */
  function SaveTheme(isDark: bool, s: Storage): (r: Storage)
    ensures r.Available? <==> s.Available?
    ensures s.Available? ==> StoredTheme(r) == Some(ThemeName(isDark))
    ensures r.Available? ==> forall k :: k != ThemeKey ==>
              (k in r.entries <==> k in s.entries) && (k in s.entries ==> r.entries[k] == s.entries[k])
  {
    match s
    case Available(entries) => Available(entries[ThemeKey := ThemeName(isDark)])
    case Unavailable => Unavailable
  }

  /** The save effect, which runs whenever the mode or the mounted flag
      changes and writes only once the provider has mounted. */
  function Persist(p: Provider): (r: Provider)
    ensures r.isDark == p.isDark && r.mounted == p.mounted
    ensures !p.mounted ==> r == p
  {
    if p.mounted then p.(storage := SaveTheme(p.isDark, p.storage)) else p
  }

  /** A fresh provider: dark, not yet mounted, so nothing is saved yet. */
  function Initial(s: Storage): (r: Provider)
    ensures r.isDark && !r.mounted && r.storage == s
    ensures Persist(r) == r
  {
    Provider(true, false, s)
  }

  /** Mounting: the mount effect marks the provider mounted and loads the
      stored mode, and the save effect then writes the loaded mode back. */
  function Mount(p: Provider): (r: Provider)
    ensures r.mounted
    ensures StoredTheme(p.storage) == Some("dark") ==> r.isDark
    ensures StoredTheme(p.storage) == Some("light") ==> !r.isDark
  {
    Persist(Provider(LoadTheme(p.isDark, p.storage), true, p.storage))
  }

  /** `toggleTheme`: flip the mode; the save effect follows. */
  function Toggle(p: Provider): (r: Provider)
    ensures r.isDark == !p.isDark && r.mounted == p.mounted
  {
    Persist(p.(isDark := !p.isDark))
  }

  /** `n` clicks on the toggle button. */
  function Toggles(p: Provider, n: nat): Provider {
    if n == 0 then p else Toggle(Toggles(p, n - 1))
  }

  /** A mounted provider whose storage, when available, holds its mode. */
  predicate Consistent(p: Provider) {
    p.mounted && (p.storage.Available? ==> StoredTheme(p.storage) == Some(ThemeName(p.isDark)))
  }

  // ---------------------------------------------------------------------
  // Laws.

  /** Loading what was saved restores the saved mode, whatever the mode
      before loading. */
  lemma LoadSaved(isDark: bool, before: bool, s: Storage)
    requires s.Available?
    ensures LoadTheme(before, SaveTheme(isDark, s)) == isDark
  {
  }

  /** Saving the mode storage already holds changes nothing. */
  lemma SaveUnchanged(p: Provider)
    requires Consistent(p)
    ensures SaveTheme(p.isDark, p.storage) == p.storage
  {
    if p.storage.Available? {
      var m := p.storage.entries;
      assert m[ThemeKey := ThemeName(p.isDark)] == m;
    }
  }

  /** After mounting, the provider is consistent with its storage. */
  lemma MountConsistent(s: Storage)
    ensures Consistent(Mount(Initial(s)))
  {
  }

  /** With no usable saved value the page starts dark and, storage
      permitting, saves `"dark"`. */
  lemma DefaultDark(s: Storage)
    requires StoredTheme(s).None? || StoredTheme(s) == Some("")
    ensures Mount(Initial(s)).isDark
    ensures s.Available? ==> StoredTheme(Mount(Initial(s)).storage) == Some("dark")
  {
  }

  /** Toggling keeps storage consistent with the mode. */
  lemma ToggleConsistent(p: Provider)
    requires Consistent(p)
    ensures Consistent(Toggle(p))
  {
  }

  /** Toggling twice restores the provider exactly, storage included. */
  lemma ToggleTwice(p: Provider)
    requires Consistent(p)
    ensures Toggle(Toggle(p)) == p
  {
    ToggleConsistent(p);
    SaveUnchanged(p);
  }

  /** Reloading the page (a fresh provider mounted on the same storage)
      restores the mode and leaves storage as it was. */
  lemma ReloadRestores(p: Provider)
    requires Consistent(p) && p.storage.Available?
    ensures Mount(Initial(p.storage)) == p
  {
    LoadSaved(p.isDark, true, p.storage);
    SaveUnchanged(p);
  }

  /** Mounting again on what a mount left behind changes nothing. */
  lemma MountIdempotent(s: Storage)
    requires s.Available?
    ensures Mount(Initial(Mount(Initial(s)).storage)) == Mount(Initial(s))
  {
    MountConsistent(s);
    ReloadRestores(Mount(Initial(s)));
  }

  /** After `n` clicks the mode has flipped `n` times, so it is back where it
      started exactly when `n` is even, and storage still holds it. */
  lemma {:induction false} TogglesParity(p: Provider, n: nat)
    requires Consistent(p)
    ensures Toggles(p, n).isDark == (if n % 2 == 0 then p.isDark else !p.isDark)
    ensures Consistent(Toggles(p, n))
  {
    if n > 0 {
      TogglesParity(p, n - 1);
      ToggleConsistent(Toggles(p, n - 1));
    }
  }

  /** An even number of clicks restores the provider exactly. */
  lemma {:induction false} TogglesEven(p: Provider, k: nat)
    requires Consistent(p)
    ensures Toggles(p, 2 * k) == p
  {
    if k > 0 {
      TogglesEven(p, k - 1);
      assert Toggles(p, 2 * k) == Toggle(Toggle(Toggles(p, 2 * (k - 1))));
      ToggleTwice(p);
    }
  }
}

=== FILE: uri.dfy ===
/** `encodeURIComponent` and `decodeURIComponent` of ECMA-262 (section
    "URI Handling Functions"): every character outside a fixed unescaped set
    is replaced by the UTF-8 octets of its code point, each written as `%XX`
    with upper-case hexadecimal digits, in the manner of section 2.1 of
    RFC 3986. A Dafny `char` is a Unicode scalar value, so one character here
    is one code point (a surrogate pair of the JavaScript string). */
module UriComponent {
  import opened Results
  import opened Arithmetic

  /** The characters `encodeURIComponent` leaves as they are: ASCII letters
      and digits and the marks `- _ . ! ~ * ' ( )`. */
  predicate IsUnescaped(c: char) {
    || 'A' <= c <= 'Z' || 'a' <= c <= 'z' || '0' <= c <= '9'
    || c == '-' || c == '_' || c == '.' || c == '!' || c == '~'
    || c == '*' || c == '\'' || c == '(' || c == ')'
  }

  predicate IsHexDigit(c: char) {
    '0' <= c <= '9' || 'A' <= c <= 'F' || 'a' <= c <= 'f'
  }

  function HexValue(c: char): (v: int)
    requires IsHexDigit(c)
    ensures 0 <= v < 16
  {
    if c <= '9' then c as int - '0' as int
    else if c <= 'F' then c as int - 'A' as int + 10
    else c as int - 'a' as int + 10
  }

  /** The upper-case hexadecimal digit of `v`. */
  function HexChar(v: int): (c: char)
    requires 0 <= v < 16
    ensures IsHexDigit(c) && IsUnescaped(c) && HexValue(c) == v
  {
    if v < 10 then ('0' as int + v) as char else ('A' as int + v - 10) as char
  }

  type Octet = b: int | 0 <= b < 256

  /** The UTF-8 encoding of a code point (RFC 3629, section 3). */
  function Utf8(c: char): (bytes: seq<Octet>)
    ensures 1 <= |bytes| <= 4
  {
    var cp := c as int;
    if cp < 0x80 then [cp]
    else if cp < 0x800 then [0xC0 + cp / 64, 0x80 + cp % 64]
    else if cp < 0x10000 then [0xE0 + cp / 4096, 0x80 + cp / 64 % 64, 0x80 + cp % 64]
    else [0xF0 + cp / 262144, 0x80 + cp / 4096 % 64, 0x80 + cp / 64 % 64, 0x80 + cp % 64]
  }

  /** `%XX` for one octet. */
  function Percent(b: Octet): string {
    ['%', HexChar(b / 16), HexChar(b % 16)]
  }

  function PercentAll(bytes: seq<Octet>): (r: string)
    ensures |r| == 3 * |bytes|
  {
    if |bytes| == 0 then [] else Percent(bytes[0]) + PercentAll(bytes[1..])
  }

  function EncodeChar(c: char): string {
    if IsUnescaped(c) then [c] else PercentAll(Utf8(c))
  }

  /** Text made only of unescaped characters and `%XX` triples. */
  predicate IsEncodedForm(t: string)
    decreases |t|
  {
    if |t| == 0 then true
    else if t[0] == '%' then |t| >= 3 && IsHexDigit(t[1]) && IsHexDigit(t[2]) && IsEncodedForm(t[3..])
    else IsUnescaped(t[0]) && IsEncodedForm(t[1..])
  }

  lemma {:induction false} EncodedFormAppend(a: string, b: string)
    requires IsEncodedForm(a) && IsEncodedForm(b)
    ensures IsEncodedForm(a + b)
    decreases |a|
  {
    if |a| == 0 {
      assert a + b == b;
    } else if a[0] == '%' {
      assert (a + b)[3..] == a[3..] + b;
      EncodedFormAppend(a[3..], b);
    } else {
      assert (a + b)[1..] == a[1..] + b;
      EncodedFormAppend(a[1..], b);
    }
  }

  lemma {:induction false} PercentAllForm(bytes: seq<Octet>)
    ensures IsEncodedForm(PercentAll(bytes))
  {
    if |bytes| > 0 {
      PercentAllForm(bytes[1..]);
      var p := Percent(bytes[0]);
      assert IsEncodedForm(p) by {
        assert p[3..] == [];
      }
      EncodedFormAppend(p, PercentAll(bytes[1..]));
    }
  }

  /** The handler's `encodeURIComponent`: each character of `s` in turn,
      unescaped ones as they are and all others as the `%XX` triples of
      their UTF-8 octets. */
  function Encode(s: string): (r: string)
    ensures IsEncodedForm(r)
  {
    if |s| == 0 then []
    else
      var head := EncodeChar(s[0]);
      assert IsEncodedForm(head) by {
        if IsUnescaped(s[0]) {
          assert head[1..] == [];
        } else {
          PercentAllForm(Utf8(s[0]));
        }
      }
      EncodedFormAppend(head, Encode(s[1..]));
      head + Encode(s[1..])
  }

  /** Encoding works character by character, so it distributes over
      concatenation. */
  lemma {:induction false} EncodeAppend(a: string, b: string)
    ensures Encode(a + b) == Encode(a) + Encode(b)
    decreases |a|
  {
    if |a| == 0 {
      assert a + b == b;
    } else {
      assert (a + b)[0] == a[0];
      assert (a + b)[1..] == a[1..] + b;
      EncodeAppend(a[1..], b);
    }
  }

  /** Encoding never shortens text, and it leaves text unchanged exactly
      when every character is unescaped; any other character grows into
      at least one `%XX` triple. */
  lemma {:induction false} EncodeUnchanged(s: string)
    ensures |Encode(s)| >= |s|
    ensures Encode(s) == s <==> forall i :: 0 <= i < |s| ==> IsUnescaped(s[i])
    ensures |Encode(s)| == |s| <==> forall i :: 0 <= i < |s| ==> IsUnescaped(s[i])
  {
    if |s| > 0 {
      EncodeUnchanged(s[1..]);
      assert forall i :: 1 <= i < |s| ==> s[i] == s[1..][i - 1];
      assert s == [s[0]] + s[1..];
      if !IsUnescaped(s[0]) {
        assert |EncodeChar(s[0])| >= 3;
      }
    }
  }

  /** Encoded text holds only unescaped characters and `%`: never a space,
      `&`, `=`, `?`, `#`, `/`, `+` or a line break. */
  lemma {:induction false} EncodedFormChars(t: string)
    requires IsEncodedForm(t)
    ensures forall k :: 0 <= k < |t| ==> IsUnescaped(t[k]) || t[k] == '%'
    decreases |t|
  {
    if |t| > 0 {
      if t[0] == '%' {
        EncodedFormChars(t[3..]);
        assert forall k :: 3 <= k < |t| ==> t[k] == t[3..][k - 3];
      } else {
        EncodedFormChars(t[1..]);
        assert forall k :: 1 <= k < |t| ==> t[k] == t[1..][k - 1];
      }
    }
  }

  /** The octet written as `%XX` at position `k` of `t`, if there is one. */
  function OctetAt(t: string, k: nat): Option<int> {
    if k + 3 <= |t| && t[k] == '%' && IsHexDigit(t[k + 1]) && IsHexDigit(t[k + 2])
    then Some(16 * HexValue(t[k + 1]) + HexValue(t[k + 2]))
    else None
  }

  /** The six payload bits of a UTF-8 continuation octet `10xxxxxx` at `k`. */
  function ContinuationAt(t: string, k: nat): Option<int> {
    match OctetAt(t, k)
    case Some(b) => if 0x80 <= b < 0xC0 then Some(b - 0x80) else None
    case None => None
  }

  /** Decodes the first character of `t` and says how many characters of `t`
      it took; None where `decodeURIComponent` throws a URIError: a `%` not
      followed by two hexadecimal digits, a lead octet that starts no UTF-8
      sequence, a missing or malformed continuation octet, or octets that are
      not the shortest encoding of a Unicode scalar value. */
  function DecodeUnit(t: string): (r: Option<(char, nat)>)
    requires |t| > 0
    ensures r.Some? ==> 1 <= r.value.1 <= |t|
  {
    if t[0] != '%' then Some((t[0], 1))
    else match OctetAt(t, 0)
      case None => None
      case Some(b0) =>
        if b0 < 0x80 then Some((b0 as char, 3))
        else if 0xC0 <= b0 < 0xE0 then
          match ContinuationAt(t, 3)
          case None => None
          case Some(c1) =>
            var cp := (b0 - 0xC0) * 64 + c1;
            if 0x80 <= cp then Some((cp as char, 6)) else None
        else if 0xE0 <= b0 < 0xF0 then
          match (ContinuationAt(t, 3), ContinuationAt(t, 6))
          case (Some(c1), Some(c2)) =>
            var cp := (b0 - 0xE0) * 4096 + c1 * 64 + c2;
            if 0x800 <= cp && !(0xD800 <= cp < 0xE000) then Some((cp as char, 9)) else None
          case _ => None
        else if 0xF0 <= b0 < 0xF8 then
          match (ContinuationAt(t, 3), ContinuationAt(t, 6), ContinuationAt(t, 9))
          case (Some(c1), Some(c2), Some(c3)) =>
            var cp := (b0 - 0xF0) * 262144 + c1 * 4096 + c2 * 64 + c3;
            if 0x10000 <= cp < 0x110000 then Some((cp as char, 12)) else None
          case _ => None
        else None
  }

  /** `decodeURIComponent`: None where it throws a URIError. */
  function Decode(t: string): Option<string>
    decreases |t|
  {
    if |t| == 0 then Some([])
    else match DecodeUnit(t)
      case None => None
      case Some((c, n)) =>
        match Decode(t[n..])
        case None => None
        case Some(rest) => Some([c] + rest)
  }

  lemma OctetAtPercent(t: string, k: nat, b: Octet)
    requires k + 3 <= |t| && t[k..k + 3] == Percent(b)
    ensures OctetAt(t, k) == Some(b)
  {
    assert t[k] == '%' && t[k + 1] == HexChar(b / 16) && t[k + 2] == HexChar(b % 16);
  }

  lemma Split2(cp: int)
    requires 0 <= cp
    ensures cp / 64 * 64 + cp % 64 == cp
  {
  }

  lemma Split3(cp: int)
    requires 0 <= cp
    ensures cp / 4096 * 4096 + cp / 64 % 64 * 64 + cp % 64 == cp
  {
    var a := cp / 64;
    DivModUnique(cp, 4096, a / 64, a % 64 * 64 + cp % 64);
  }

  lemma Split4(cp: int)
    requires 0 <= cp
    ensures cp / 262144 * 262144 + cp / 4096 % 64 * 4096 + cp / 64 % 64 * 64 + cp % 64 == cp
  {
    var a := cp / 64;
    var b := a / 64;
    DivModUnique(cp, 4096, b, a % 64 * 64 + cp % 64);
    DivModUnique(cp, 262144, b / 64, b % 64 * 4096 + a % 64 * 64 + cp % 64);
  }

  /** The `i`-th triple of a percent-encoded octet string encodes the `i`-th octet. */
  lemma {:induction false} PercentAllAt(bytes: seq<Octet>, rest: string, i: nat)
    requires i < |bytes|
    ensures OctetAt(PercentAll(bytes) + rest, 3 * i) == Some(bytes[i])
  {
    var t := PercentAll(bytes) + rest;
    var tail := PercentAll(bytes[1..]) + rest;
    assert t == Percent(bytes[0]) + tail;
    if i == 0 {
      assert t[0..3] == Percent(bytes[0]);
      OctetAtPercent(t, 0, bytes[0]);
    } else {
      PercentAllAt(bytes[1..], rest, i - 1);
      assert t[3..] == tail;
      assert OctetAt(t, 3 * i) == OctetAt(tail, 3 * (i - 1));
    }
  }

  lemma DecodeUnitTwo(c: char, rest: string)
    requires 0x80 <= c as int < 0x800
    ensures DecodeUnit(PercentAll(Utf8(c)) + rest) == Some((c, 6))
  {
    PercentAllAt(Utf8(c), rest, 0);
    PercentAllAt(Utf8(c), rest, 1);
    Split2(c as int);
  }

  lemma DecodeUnitThree(c: char, rest: string)
    requires 0x800 <= c as int < 0x10000
    ensures DecodeUnit(PercentAll(Utf8(c)) + rest) == Some((c, 9))
  {
    PercentAllAt(Utf8(c), rest, 0);
    PercentAllAt(Utf8(c), rest, 1);
    PercentAllAt(Utf8(c), rest, 2);
    Split3(c as int);
  }

  lemma DecodeUnitFour(c: char, rest: string)
    requires 0x10000 <= c as int
    ensures DecodeUnit(PercentAll(Utf8(c)) + rest) == Some((c, 12))
  {
    var t, cp := PercentAll(Utf8(c)) + rest, c as int;
    assert OctetAt(t, 0) == Some(0xF0 + cp / 262144) by {
      PercentAllAt(Utf8(c), rest, 0);
    }
    assert ContinuationAt(t, 3) == Some(cp / 4096 % 64) by {
      PercentAllAt(Utf8(c), rest, 1);
    }
    assert ContinuationAt(t, 6) == Some(cp / 64 % 64) by {
      PercentAllAt(Utf8(c), rest, 2);
    }
    assert ContinuationAt(t, 9) == Some(cp % 64) by {
      PercentAllAt(Utf8(c), rest, 3);
    }
    Split4(cp);
  }

  /** Decoding the encoding of one character, whatever follows it, yields
      that character and consumes exactly its encoding. */
  lemma DecodeUnitEncodeChar(c: char, rest: string)
    ensures DecodeUnit(EncodeChar(c) + rest) == Some((c, |EncodeChar(c)|))
  {
    if !IsUnescaped(c) {
      var cp := c as int;
      if cp < 0x80 {
        PercentAllAt(Utf8(c), rest, 0);
      } else if cp < 0x800 {
        DecodeUnitTwo(c, rest);
      } else if cp < 0x10000 {
        DecodeUnitThree(c, rest);
      } else {
        DecodeUnitFour(c, rest);
      }
    }
  }

  /** Decoding undoes encoding: every string comes back unchanged, so text
      placed in a query parameter reads back exactly as it was typed. */
  lemma {:induction false} DecodeEncode(s: string)
    ensures Decode(Encode(s)) == Some(s)
  {
    if |s| > 0 {
      var t, head, tail := Encode(s), EncodeChar(s[0]), Encode(s[1..]);
      assert t == head + tail;
      DecodeUnitEncodeChar(s[0], tail);
      assert t[|head|..] == tail;
      DecodeEncode(s[1..]);
      assert Decode(t) == Some([s[0]] + s[1..]);
      assert s == [s[0]] + s[1..];
    }
  }

  /** Text without `%` decodes to itself. */
  lemma {:induction false} DecodePlain(t: string)
    requires '%' !in t
    ensures Decode(t) == Some(t)
  {
    if |t| > 0 {
      DecodePlain(t[1..]);
      assert t == [t[0]] + t[1..];
    }
  }
}
